=== FILE: README.md ===
# Shimonopoly game engine — a Dafny model

This project models the game engine of Shimonopoly, which lives in `extras/core-logic.js`. A player restores power to damaged cities, one transformer per restoration, against a countdown. The engine has five parts, and each is a Dafny module here:

- `SeededRandom` (`seeded_random.dfy`): the Park–Miller generator with modulus 2147483647 and multiplier 16807, and its in-place Fisher–Yates shuffle.
- `DataLoader` (`data_loader.dfy`): reads line-delimited city records. It trims each line, skips blank lines, parses the rest as JSON, validates the record and builds a fresh city with both flags down.
- `CityManager` (`city_manager.dfy`): owns the working set. It selects a shuffled prefix of the loaded cities and damages `Math.round(n * fraction)` of them. It looks cities up by case-insensitive name and lists the damaged and the restored cities.
- `ScoringEngine` and `DistanceCalculator.findCitiesWithinRadius` (`scoring_engine.dfy`, `distance.dfy`):
  - Basic mode: one point and one transformer per city.
  - Advanced mode: `population / 1000` points and a cost of `1 / (1 + N)` transformers. N counts the already restored cities within 300 miles.
- `GameController` (`game_controller.dfy`): the session state machine over transformers, score, remaining time, the timer-started flag and the ended flag. It runs the restore operation with its ordered guards, the timer tick and the end of the game.

Supporting modules:
- `Js` (`js.dfy`) models the JavaScript values and string built-ins the engine relies on: `typeof`/truthiness, `trim`, `toLowerCase` and `split('\n')`.
- `Cities` (`cities.dfy`) holds the city record.
- `Seqs` (`seqs.dfy`) holds the sequence vocabulary: filter, positions, subsequence, permutation by index.

Modelling choices:
- Every operation is a pure function from the old state to the new one. The source mutates objects in place.
- A city's identity is its position in the working set. The source compares objects by reference.
- The generator state is threaded through explicitly.
- The Fisher–Yates loop is split into its draws (`SeededRandom.SwapSchedule`) and its swaps (`SeededRandom.SwapDown`). The swaps never influence the draws, so running all draws first gives the same partners as the interleaved loop of `extras/core-logic.js:31-34`.
- The JSON parser and the great-circle distance are function-typed parameters.
- Numbers are exact: `int` for the generator state and the clock, `real` for score, transformers, fraction, population and coordinates.

The model follows the code in these places:
- Population is not checked to be non-negative. Only its type and NaN-ness are checked (`extras/core-logic.js:153`).
- `updateTimer` decrements the clock whether or not the timer has been started (`extras/core-logic.js:458-470`).
- A negative `numCities` follows `Array.prototype.slice`: `min(count, n)` negative keeps all but the last `|count|` cities (`extras/core-logic.js:187-194`).
- `isValidCity` calls `city.hasOwnProperty(...)` as a method. A parsed record with its own `"hasOwnProperty"` key and a truthy name makes that call throw. The loader's `catch` turns the throw into a skipped line. `DataLoader.Validation.Throws` models this.

## Model

| member | source | states |
|---|---|---|
| SeededRandom.InitAsWritten | extras/core-logic.js:11-14 | The constructor's normalised seed lies in [0, 2147483646]. It is at least 1 for a non-negative seed. It is 0 exactly when the JavaScript remainder is -2147483646. |
| SeededRandom.Init | extras/core-logic.js:11-14 | The corrected constructor always yields a state in [1, 2147483646]. It differs from the source's normalisation exactly for the seeds whose JavaScript remainder is -2147483646. |
| SeededRandom.InitAsWrittenCanStick | extras/core-logic.js:11-36 | Seed -2147483646 normalises to state 0. From state 0, `next()` stays at 0 and returns a negative number. Every shuffle swap index is then -1, outside the array. |
| SeededRandom.Next | extras/core-logic.js:20-23 | From a valid state, `next()` moves to a valid state. It returns `(state - 1) / 2147483646` of the new state, which lies in [0, 1) as the doc comment promises. |
| SeededRandom.SwapIndex | extras/core-logic.js:32 | The Fisher–Yates swap index never exceeds the current position `i`. |
| SeededRandom.SwapIndexIsFloor | extras/core-logic.js:32 | The integer swap index is exactly `Math.floor(next() * (i + 1))` computed over exact reals. |
| SeededRandom.SwapSchedule | extras/core-logic.js:31-32 | The loop from position `i` down to 1 draws one swap partner per position, and each partner lies at or below its position. |
| SeededRandom.SwapDownPermutes | extras/core-logic.js:31-34 | Whatever partners are drawn, the swap loop returns a rearrangement of its input: the same multiset of elements. |
| SeededRandom.Shuffle | extras/core-logic.js:30-36 | `shuffle` returns a permutation of its input: same length, same multiset. It consumes `max(length - 1, 0)` generator steps. |
| SeededRandom.SwapDownPick | extras/core-logic.js:31-34 | Shuffling values looked up through an index list equals looking them up through the shuffled index list. |
| SeededRandom.ShuffleIsIndexPermutation | extras/core-logic.js:30-36 | Shuffling any array equals reading it through the shuffled index list `0..n-1`, with the same final generator state. |
| SeededRandom.SwapDownKeepsDistinct | extras/core-logic.js:31-34 | Shuffling an array without repeats gives an array without repeats. |
| SeededRandom.ShuffledRangeIsPermutation | extras/core-logic.js:30-36 | The shuffled index list `0..n-1` holds every index below n exactly once. |
| DistanceCalculator.FindCitiesWithinRadius | extras/core-logic.js:79-88 | The result is an order-preserving subsequence of the candidates. It keeps exactly those candidates, other than the centre itself, whose distance is at most the radius. It never contains the centre. |
| DistanceCalculator.WithinRadiusPositions | extras/core-logic.js:79-88 | The result is the candidate list read at the positions of its in-radius candidates, in order, so a repeated candidate is kept as often as it occurs. |
| DistanceCalculator.WithinRadiusSnoc | extras/core-logic.js:79-88 | Appending a candidate grows the result by one exactly when that candidate is within the radius. |
| DataLoader.ValidateCity | extras/core-logic.js:142-162 | A parsed value is valid exactly when it is an object without its own `hasOwnProperty` key whose name is a non-empty string, whose population, lat and lon are non-NaN numbers, and whose lat lies in [-90, 90] and lon in [-180, 180]. Validation throws exactly when such an object shadows `hasOwnProperty` and has a truthy name. |
| DataLoader.ToCity | extras/core-logic.js:119-127 | The record built from a valid value carries its parsed name, population, lat and lon. It is well formed, with `damaged` and `restored` both false. |
| DataLoader.CityOfLine | extras/core-logic.js:105-131 | A line yields a city only if the city is well formed and untouched. |
| DataLoader.CityOfLineKeeps | extras/core-logic.js:105-131 | A line yields a city exactly when its trimmed text is non-blank, parses, and validates. The city is the one built from the parsed value. |
| DataLoader.ValidCities | extras/core-logic.js:100-135 | The loader never outputs more records than lines. Every output record is well formed and untouched. |
| DataLoader.ValidCitiesAreKeptLines | extras/core-logic.js:100-135 | The output has one record per kept line, in line order. The k-th record is the one built from the k-th kept line. |
| DataLoader.ParseCityData | extras/core-logic.js:100-135 | `parseCityData` never fails. It returns exactly the records of the kept lines of the text split at `'\n'`, each well formed and untouched. |
| DataLoader.ParseLines | extras/core-logic.js:104-132 | The loop over the lines collects exactly the records of the kept lines, in order. |
| Js.SkipForward | extras/core-logic.js:105 | The scan for the start of the trimmed text passes over whitespace only and stops at the first other character or at the end. |
| Js.SkipBackward | extras/core-logic.js:105 | The scan for the end of the trimmed text passes back over whitespace only and stops after the last other character, or at the start of the text. |
| Js.Trim | extras/core-logic.js:105 | `trim()` is never longer than its input and neither starts nor ends with whitespace. |
| Js.TrimIsMiddle | extras/core-logic.js:105 | `trim()` returns a contiguous piece of the input, and everything before and after that piece is whitespace. |
| Js.TrimEmptyIffBlank | extras/core-logic.js:105-108 | A line is skipped as empty after trimming exactly when every character in it is whitespace. |
| Js.TrimIdempotent | extras/core-logic.js:232 | Trimming twice is trimming once. |
| Js.Lower | extras/core-logic.js:232-235 | `toLowerCase()` keeps the length and lower-cases each character in place. |
| Js.LowerIdempotent | extras/core-logic.js:232-235 | Lower-casing twice is lower-casing once, and the result has no upper-case ASCII letter. |
| Js.SplitLines | extras/core-logic.js:102 | `split('\n')` returns at least one piece. No piece contains a newline, and joining the pieces with newlines gives back the text. |
| CityManager.NewRegistry | extras/core-logic.js:174-178 | A new manager keeps the loaded cities and has an empty working set. Its generator is seeded from `seed` through `SeededRandom.Init`, so its state is valid. It equals the JavaScript normalisation for every seed whose remainder is not -2147483646. |
| CityManager.SelectionSize | extras/core-logic.js:187-194 | The selection holds `min(count, n)` cities: all of them when count is at least n, exactly count when it lies in [0, n], and slice semantics when it is negative. |
| CityManager.SelectedPositions | extras/core-logic.js:185-197 | The selected positions are distinct positions into the loaded cities, as many as the selection size. |
| CityManager.SelectCities | extras/core-logic.js:185-197 | The working set is the first `min(count, n)` cities of a shuffled copy, each read from the untouched loaded list. The loaded list is not reordered. The generator advances `max(n - 1, 0)` steps. |
| CityManager.FullSelectionCoversAll | extras/core-logic.js:185-197 | A count of at least n selects every loaded city: each position appears in the selection. |
| CityManager.Round | extras/core-logic.js:210 | `Math.round` returns the integer within half a unit of its argument, halves rounding up. |
| CityManager.DamageCount | extras/core-logic.js:210 | For a fraction in [0.5, 1.0], the number to damage is `Math.round(n * fraction)` and never exceeds n. |
| CityManager.DamageChoice | extras/core-logic.js:210-218 | The cities to damage are, by position, exactly the first `Math.round(n * fraction)` entries of the shuffled copy, without repeats. |
| CityManager.DamageCities | extras/core-logic.js:203-220 | A fraction outside [0.5, 1.0] fails before any flag changes. Otherwise exactly the chosen cities become damaged, the rest keep their flag, and no other field of any city changes. The loaded list stays the same and the generator advances. |
| CityManager.DamagesRoundedFraction | extras/core-logic.js:203-220 | For a fraction in [0.5, 1.0] and a working set with nothing damaged, exactly `Math.round(n * fraction)` cities end up damaged. |
| CityManager.FindFrom | extras/core-logic.js:234-236 | `Array.prototype.find` returns the first matching position at or after the start, or nothing when none matches. |
| CityManager.FindCityByName | extras/core-logic.js:227-237 | Lookup finds nothing for a falsy or non-string argument. Otherwise it returns the first working-set city whose lower-cased name equals the trimmed, lower-cased query, and nothing exactly when no city matches. |
| CityManager.FindIgnoresFlags | extras/core-logic.js:227-237 | Lookup depends only on the cities' names, so changing flags never changes its answer. |
| CityManager.GetDamagedCities | extras/core-logic.js:243-245 | The damaged list is the working set read at the positions of the damaged, unrestored cities, in order. A repeated record therefore appears as often as it does in the working set. It is an order-preserving subsequence that holds every such city and nothing else. |
| CityManager.GetRestoredCities | extras/core-logic.js:251-253 | The restored list is the working set read at the positions of the restored cities, in order, repeats included. It is an order-preserving subsequence that holds every restored city and nothing else. |
| ScoringEngine.CalculatePoints | extras/core-logic.js:281-289 | Basic mode earns 1 point. Advanced mode earns population/1000, which is non-negative for a non-negative population. |
| ScoringEngine.CalculateRestorationCost | extras/core-logic.js:297-311 | The cost lies in (0, 1]. It is 1 in basic mode and `1 / (1 + N)` in advanced mode, N counting the restored cities within 300 miles. |
| ScoringEngine.CostWithoutNeighbours | extras/core-logic.js:297-311 | With no restored city within 300 miles, the advanced cost is exactly 1. |
| ScoringEngine.CostDecreasesWithNearbyRestoration | extras/core-logic.js:297-311 | One more restored city within 300 miles makes the advanced cost strictly smaller. |
| GameController.InitializeWithCities | extras/core-logic.js:340-360 | Initialisation fails exactly when the damage fraction is out of range. Otherwise the registry is the result of seeding a new manager, selecting `numCities` cities and damaging them, so the contracts of `SelectCities` and `DamageCities` apply. The working set has `min(numCities, n)` cities, there is one transformer per damaged, unrestored city, the score is 0, the clock is full and both flags are down. |
| GameController.InitialDamageAndTransformers | extras/core-logic.js:340-360 | For a fraction in [0.5, 1.0] and freshly loaded (untouched) cities, initialisation succeeds and the session invariant holds. It damages `Math.round(selected * fraction)` cities, restores none, and hands out that many transformers. |
| GameController.FreshDamage | extras/core-logic.js:203-220 | For a fraction in [0.5, 1.0], damaging an untouched working set succeeds and restores nothing, so only damaged cities could be restored. The cities awaiting restoration are exactly the damaged ones, `Math.round(n * fraction)` of them. |
| GameController.SelectionKeepsUntouched | extras/core-logic.js:185-197 | A selection from untouched cities is untouched. |
| GameController.FullDamageScenario | extras/core-logic.js:340-360 | From untouched loaded cities, fraction 1.0 makes every selected city start damaged and awaiting restoration, with one transformer each. |
| GameController.StartTimer | extras/core-logic.js:447-453 | Starting the timer raises the timer flag and changes nothing else. |
| GameController.RestoreCity | extras/core-logic.js:367-442 | Each rejection holds exactly when its guard is the first to fail, in this order: ended, not found, not damaged, already restored, too few transformers. A rejection leaves the game unchanged. A success needs a damaged, unrestored city. It restores that city and no other, spends its cost (in (0, 1], transformers stay non-negative), adds its points, starts the timer and changes nothing else: the loaded list, the generator state, the configuration and the clock stay as they were. Restoration keeps transformers non-negative and restores only damaged cities. |
| GameController.RestoreKeepsBasicBalance | extras/core-logic.js:354-355 | In basic mode, a restoration keeps transformers equal to the number of damaged, unrestored cities. Initialisation sets up that balance at `:354-355`. The guard at `:412` and the updates at `:426-429` take one city off the list and one transformer away. |
| GameController.RestoreTwice | extras/core-logic.js:398-405 | Restoring the same name right after a success is rejected as already restored and changes nothing. |
| GameController.FirstAdvancedRestoration | extras/core-logic.js:407-433 | In advanced mode with nothing restored yet, a restoration costs exactly one transformer and earns exactly population/1000 points. |
| GameController.EndGame | extras/core-logic.js:475-487 | Ending the game raises the ended flag and changes nothing else, so ending twice is ending once. |
| GameController.UpdateTimer | extras/core-logic.js:458-470 | A tick does nothing once the game has ended. Otherwise it takes one second off. When that leaves zero or less, the clock stops at 0 and the game ends. Nothing else changes. |
| GameController.EndedIsAbsorbing | extras/core-logic.js:369-375 | Once ended, no sequence of ticks and restore attempts changes the game. |
| GameController.RunKeepsInvariants | extras/core-logic.js:367-470 | Any sequence of ticks and restore attempts keeps the session invariant and the basic-mode balance. It never lowers a raised flag, never changes the configuration or the working-set size, and never winds the clock up or below 0. |
| GameController.TicksRunOut | extras/core-logic.js:458-470 | For k >= 1, k ticks of a running game with k seconds left bring the clock to 0 and end the game. |
| GameController.RestoreThenThreeTicks | extras/core-logic.js:367-470 | In a running basic-mode game with three seconds left, every working city awaiting restoration and one transformer per city, restoring a city found by name adds 1 to the score, leaves n - 1 of the n transformers and starts the timer. Three ticks then end the game at 0. |
| GameController.FullSelectionFindsName | extras/core-logic.js:185-197 | For a fraction in [0.5, 1.0] and a non-empty string name, when `numCities` is at least the number of loaded cities every loaded city is in the working set, so a name matching any loaded city is found. |
| GameController.BasicModeScenario | extras/core-logic.js:340-470 | A basic-mode game with every loaded city selected, fraction 1.0 and a three-second timer. Restoring any loaded city by name scores 1, leaves n - 1 transformers and starts the timer. Three ticks then end the game with the clock at 0. |
| GameController.GetState | extras/core-logic.js:493-500 | The snapshot copies transformers, score, remaining time and both flags from the game. Its city list is the working set, and its two lists are the damaged-and-unrestored and the restored views of the registry. For a consistent game, those two lists together count every damaged city. For a balanced game in basic mode, its transformers equal the length of its damaged list. |

## Left out

- CityManager.NewRegistry: seeds the generator with the corrected `SeededRandom.Init`, not the source's normalisation (`extras/core-logic.js:11-14`, `:176`). For a seed whose JavaScript remainder is -2147483646, the source starts at state 0 and then draws swap index -1. The shuffle writes `undefined` into the copy and loses a city. See "## Findings".
- GameController.InitializeWithCities: runs on that corrected normalisation. For the seeds above, the source's `initializeWithCities` can throw a TypeError when it reads a flag of the `undefined` entry (`extras/core-logic.js:218`, `:244`). The model's initialisation fails only for an out-of-range fraction. The half-initialised controller left after a thrown fraction error is not modelled. The JavaScript code assigns the manager and selects cities (`extras/core-logic.js:342-345`) before `damageCities` throws (`:348`). A caller that catches the error keeps that manager, with an undamaged working set and the old session fields. The model returns `Failure` and no game.
- `DistanceCalculator.calculateDistance` (`extras/core-logic.js:53-70`) is floating-point haversine with trigonometry. It is a parameter (`DistanceCalculator.Distance`) with no assumed properties, and every distance fact holds for any such function.
- `JSON.parse` is a parameter (`DataLoader.Parser`) that returns a JavaScript value or nothing, where nothing stands for a `SyntaxError`.
- `console.warn` diagnostics are left out because they have no effect on state.
- The `timerInterval` handle and `clearInterval` in `endGame` are left out. They are runtime plumbing, and the model's clock moves only through `UpdateTimer`.
- Floating-point rounding is not modelled. Score, transformers, cost, fraction and population are exact reals. The swap index `Math.floor(next() * (i + 1))` (`extras/core-logic.js:32`) is computed by exact integer division. `SeededRandom.SwapIndexIsFloor` shows it equals the floor over exact reals, not over doubles.
- Infinite numbers are left out. `DataLoader.IsNumber` accepts finite numbers only, because `Js.JsNumber` cannot hold Infinity. In the source, a population such as `1e999` parses to Infinity and passes `isValidCity` (`extras/core-logic.js:153`).
- `damagedFraction` as NaN or infinity is left out. An exact real cannot be NaN. A NaN fraction would pass the range check in JavaScript and damage `Math.round(NaN)` = NaN cities, that is none.
- Non-integer `numCities` and `timerDuration` are left out. The model takes them as integers.
- `Js.Lower` / `Js.LowerChar` lower-case ASCII letters only. Full Unicode case mapping is not modelled.
- `Js.IsWhitespace` uses the ECMAScript WhiteSpace and LineTerminator code points that `trim()` removes. Characters outside the Basic Multilingual Plane are single `char`s.
- Calling the controller before `initializeWithCities` is left out. In that state `restoreCity` would throw on the null city manager, and `getState` would report empty lists.
- Object aliasing is left out. In the source, the working set holds the same objects as the loaded list, so damage and restoration flags also show up on the loaded list. The model keeps the loaded list unchanged and records the flags on the working set only.
- The one-line getters `isTimerStarted`, `isGameEnded`, `getScore`, `getTransformers`, `getTimeRemaining`, `getCities` and `getRestoredCities` (`extras/core-logic.js:506-556`) are the `Game` fields and `GameController.GetState` projections. They have no members of their own.
- Concrete seed scenarios are not replayed, for example seed 42 selecting particular cities. The properties hold for every seed instead.
- The restore result's `shouldClearInput` and `message` are modelled (`RestoreResult.ShouldClearInput`, `RestoreResult.Message`). The integration tests' expected UI callbacks `updateGameUI` and `transitionToEndScreen` are never invoked by the engine, so they are not modelled.

## Findings

| source | as written | input that shows it | evidently intended | confidence | as-written member | corrected member |
|---|---|---|---|---|---|---|
| extras/core-logic.js:12-13 | `seed % 2147483647` then `+= 2147483646` when the result is at most 0. JavaScript's remainder keeps the seed's sign, so a remainder of -2147483646 becomes state 0. | seed = -2147483646: the state is 0, `next()` returns -1/2147483646 forever, and every swap index is -1. | Every seed should give a state in [1, 2147483646]. The corrected normalisation sends that one remainder to 2147483646 and agrees with the source on every other seed. | not executed | SeededRandom.InitAsWrittenCanStick | SeededRandom.Init |

=== FILE: cities.dfy ===
/** The city record shared by the loader, the registry, scoring and the controller. */
module Cities {

  /**
   * A city: its name, population and coordinates in degrees, plus the two game
   * flags. Object identity in the JavaScript engine is position in the working set here.
   */
  datatype City = City(
    name: string,
    population: real,
    lat: real,
    lon: real,
    damaged: bool,
    restored: bool)

  /** What the loader guarantees of every record it produces. */
  predicate WellFormed(c: City) {
    && |c.name| > 0
    && -90.0 <= c.lat <= 90.0
    && -180.0 <= c.lon <= 180.0
  }

  /** A record as the loader creates it: neither damaged nor restored. */
  predicate Untouched(c: City) {
    !c.damaged && !c.restored
  }

  /** The flag invariant of a session: only a damaged city can be restored. */
  predicate RestoredOnlyIfDamaged(c: City) {
    c.restored ==> c.damaged
  }

  predicate IsDamaged(c: City) {
    c.damaged
  }

  /** Awaiting restoration: what `getDamagedCities` keeps. */
  predicate IsPending(c: City) {
    c.damaged && !c.restored
  }

  /** What `getRestoredCities` keeps. */
  predicate IsRestored(c: City) {
    c.restored
  }
}

=== FILE: city_manager.dfy ===
/**
 * The city registry: the loaded cities, the session's random source and the
 * working set drawn from them. Selection, damage assignment, lookup by name and
 * the damaged/restored views.
 */
module CityManager {
  import opened Wrappers
  import opened Seqs
  import opened Js
  import opened Cities
  import opened SeededRandom

  /** The registry state: all loaded cities, the random state, the working set. */
  datatype Registry = Registry(allCities: seq<City>, rng: Rng, cities: seq<City>)

  /** The error `damageCities` throws for a fraction outside [0.5, 1.0]. */
  datatype DamageError = FractionOutOfRange

  /** The constructor: empty working set, random source seeded from `seed`. */
  function NewRegistry(allCities: seq<City>, seed: int): (r: Registry)
    ensures r.allCities == allCities && r.cities == []
    ensures r.rng == Init(seed)
    ensures JsRem(seed, M) != -(M - 1) ==> r.rng == InitAsWritten(seed)
  {
    Registry(allCities, Init(seed), [])
  }

  /**
   * The length of `shuffled.slice(0, Math.min(count, n))`; a negative end
   * counts back from the end of the array, as `slice` does.
   */
  function SelectionSize(count: int, n: nat): (k: nat)
    ensures k <= n
    ensures 0 <= count <= n ==> k == count
    ensures count >= n ==> k == n
    ensures count < 0 ==> k == (if n + count < 0 then 0 else n + count)
  {
    var actual := if count < n then count else n;
    if actual >= 0 then actual else if n + actual < 0 then 0 else n + actual
  }

  /** The positions in `allCities` of the selected cities, in working-set order. */
  function SelectedPositions(reg: Registry, count: int): (q: seq<nat>)
    ensures |q| == SelectionSize(count, |reg.allCities|)
    ensures Distinct(q)
    ensures AllBelow(q, |reg.allCities|)
  {
    var n := |reg.allCities|;
    ShuffledRangeIsPermutation(reg.rng, n);
    var p := Shuffle(reg.rng, Range(n)).1;
    var q := p[..SelectionSize(count, n)];
    assert forall i, j :: 0 <= i < |q| && 0 <= j < |q| && i != j ==> q[i] == p[i] && q[j] == p[j];
    q
  }

  /** A count of at least n selects every loaded city: each position occurs in the selection. */
  lemma FullSelectionCoversAll(reg: Registry, count: int)
    requires count >= |reg.allCities|
    ensures forall i :: 0 <= i < |reg.allCities| ==> i in SelectedPositions(reg, count)
  {
    var n := |reg.allCities|;
    var p := Shuffle(reg.rng, Range(n)).1;
    ShuffledRangeIsPermutation(reg.rng, n);
    assert SelectedPositions(reg, count) == p[..n] == p;
  }

  /**
   * `selectCities(count)`: shuffle a copy of all cities and keep its first
   * min(count, n) entries. The working set is a repetition-free selection of the
   * loaded cities, `allCities` is not reordered, and the random source advances
   * once per swap.
   */
  function SelectCities(reg: Registry, count: int): (r: Registry)
    ensures r.allCities == reg.allCities
    ensures |r.cities| == SelectionSize(count, |reg.allCities|)
    ensures r.cities == Pick(reg.allCities, SelectedPositions(reg, count))
    ensures r.rng == Advance(reg.rng, if |reg.allCities| == 0 then 0 else |reg.allCities| - 1)
  {
    var shuffled := Shuffle(reg.rng, reg.allCities);
    var k := SelectionSize(count, |reg.allCities|);
    ShuffleIsIndexPermutation(reg.rng, reg.allCities);
    assert shuffled.1[..k] == Pick(reg.allCities, SelectedPositions(reg, count));
    reg.(rng := shuffled.0, cities := shuffled.1[..k])
  }

  /** `Math.round`: to the nearest integer, halves rounded up. */
  function Round(x: real): (k: int)
    ensures (k as real) - 0.5 <= x < (k as real) + 0.5
  {
    (x + 0.5).Floor
  }

  /** `Math.round(n * fraction)`, the number of cities to damage; never more than n. */
  function DamageCount(n: nat, fraction: real): (k: nat)
    requires 0.5 <= fraction <= 1.0
    ensures k <= n
    ensures k == Round((n as real) * fraction)
  {
    var x := (n as real) * fraction;
    assert 0.0 <= x <= n as real by {
      assert (n as real) * (1.0 - fraction) >= 0.0;
    }
    Round(x)
  }

  /**
   * The working-set positions of the first `DamageCount` entries of the
   * shuffled copy that `damageCities` makes: exactly the cities it flags.
   */
  function DamageChoice(reg: Registry, fraction: real): (q: seq<nat>)
    requires 0.5 <= fraction <= 1.0
    ensures |q| == DamageCount(|reg.cities|, fraction)
    ensures Distinct(q)
    ensures AllBelow(q, |reg.cities|)
    ensures Pick(reg.cities, q) == Shuffle(reg.rng, reg.cities).1[..|q|]
  {
    var n := |reg.cities|;
    var p := Shuffle(reg.rng, Range(n)).1;
    var q := p[..DamageCount(n, fraction)];
    assert Distinct(q) && AllBelow(q, n) by {
      ShuffledRangeIsPermutation(reg.rng, n);
      assert forall i, j :: 0 <= i < |q| && 0 <= j < |q| && i != j ==> q[i] == p[i] && q[j] == p[j];
    }
    assert Pick(reg.cities, q) == Shuffle(reg.rng, reg.cities).1[..|q|] by {
      ShuffleIsIndexPermutation(reg.rng, reg.cities);
      PickPrefix(reg.cities, p, |q|);
    }
    q
  }

  /**
   * `damageCities(fraction)`: a fraction outside [0.5, 1.0] throws before any
   * flag changes; otherwise the cities of `DamageChoice` become damaged and
   * nothing else about the working set changes.
   */
  function DamageCities(reg: Registry, fraction: real): (r: Result<Registry, DamageError>)
    ensures r.Failure? <==> fraction < 0.5 || fraction > 1.0
    ensures r.Success? ==> && r.value.allCities == reg.allCities
                           && |r.value.cities| == |reg.cities|
                           && r.value.rng == Advance(reg.rng, if |reg.cities| == 0 then 0 else |reg.cities| - 1)
    ensures r.Success? ==> forall i :: 0 <= i < |reg.cities| ==>
              && r.value.cities[i].damaged == (reg.cities[i].damaged || i in DamageChoice(reg, fraction))
              && r.value.cities[i] == reg.cities[i].(damaged := r.value.cities[i].damaged)
  {
    if fraction < 0.5 || fraction > 1.0 then Failure(FractionOutOfRange)
    else
      var n := |reg.cities|;
      var shuffled := Shuffle(reg.rng, reg.cities);
      var choice := DamageChoice(reg, fraction);
      var cities := seq(n, i requires 0 <= i < n =>
                          if i in choice then reg.cities[i].(damaged := true) else reg.cities[i]);
      Success(reg.(rng := shuffled.0, cities := cities))
  }

  /**
   * Starting from a working set with no damaged city, damage assignment flags
   * exactly Math.round(n * fraction) cities.
   */
  lemma DamagesRoundedFraction(reg: Registry, fraction: real)
    requires 0.5 <= fraction <= 1.0
    requires forall i :: 0 <= i < |reg.cities| ==> !reg.cities[i].damaged
    ensures DamageCities(reg, fraction).Success?
    ensures |Filter(DamageCities(reg, fraction).value.cities, IsDamaged)| == DamageCount(|reg.cities|, fraction)
  {
    var after := DamageCities(reg, fraction).value.cities;
    var q := DamageChoice(reg, fraction);
    var p := Positions(after, IsDamaged);
    assert forall i :: 0 <= i < |after| ==> (after[i].damaged <==> i in q);
    assert Elements(p) == Elements(q) by {
      forall x
        ensures x in Elements(p) <==> x in Elements(q)
      {
        if x in q {
          assert x < |after|;
          assert IsDamaged(after[x]);
        }
        if x in p {
          assert x < |after| && IsDamaged(after[x]);
        }
      }
    }
    assert |Filter(after, IsDamaged)| == |p| by {
      FilterIsPickPositions(after, IsDamaged);
    }
    assert |p| == |q| by {
      IncreasingIsDistinct(p);
      DistinctSameElementsSameLength(p, q);
    }
  }

  /** The lower-cased name compares equal to the search key. */
  predicate NameMatches(c: City, key: string) {
    Lower(c.name) == key
  }

  /** The first working-set position at or after `from` whose name matches `key`. */
  function FindFrom(cities: seq<City>, key: string, from: nat): (r: Option<nat>)
    requires from <= |cities|
    ensures r.Some? ==> && from <= r.value < |cities|
                        && NameMatches(cities[r.value], key)
                        && forall j :: from <= j < r.value ==> !NameMatches(cities[j], key)
    ensures r.None? ==> forall j :: from <= j < |cities| ==> !NameMatches(cities[j], key)
    decreases |cities| - from
  {
    if from == |cities| then None
    else if NameMatches(cities[from], key) then Some(from)
    else FindFrom(cities, key, from + 1)
  }

  /**
   * `findCityByName(name)`: nothing for a falsy or non-string argument;
   * otherwise the first city whose lower-cased name equals the trimmed,
   * lower-cased query. Only the query is trimmed.
   */
  function FindCityByName(cities: seq<City>, name: JsValue): (r: Option<nat>)
    ensures r.Some? ==> && name.JString? && |name.s| > 0
                        && r.value < |cities|
                        && NameMatches(cities[r.value], Lower(Trim(name.s)))
                        && forall j :: 0 <= j < r.value ==> !NameMatches(cities[j], Lower(Trim(name.s)))
    ensures r.None? <==> || !(name.JString? && |name.s| > 0)
                         || forall j :: 0 <= j < |cities| ==> !NameMatches(cities[j], Lower(Trim(name.s)))
  {
    if !Truthy(name) || !name.JString? then None
    else FindFrom(cities, Lower(Trim(name.s)), 0)
  }

  /** Lookup reads names only, so changing flags does not change its answer. */
  lemma FindIgnoresFlags(cities: seq<City>, cities': seq<City>, name: JsValue)
    requires |cities'| == |cities|
    requires forall i :: 0 <= i < |cities| ==> cities'[i].name == cities[i].name
    ensures FindCityByName(cities', name) == FindCityByName(cities, name)
  {
    var a, b := FindCityByName(cities, name), FindCityByName(cities', name);
    if name.JString? && |name.s| > 0 {
      var key := Lower(Trim(name.s));
      assert forall j :: 0 <= j < |cities| ==> (NameMatches(cities[j], key) <==> NameMatches(cities'[j], key));
    }
  }

  /** `getDamagedCities()`: the damaged, not yet restored cities, in working-set order. */
  function GetDamagedCities(reg: Registry): (r: seq<City>)
    ensures IsSubsequence(r, reg.cities)
    ensures forall k :: 0 <= k < |r| ==> r[k].damaged && !r[k].restored
    ensures forall i :: 0 <= i < |reg.cities| && reg.cities[i].damaged && !reg.cities[i].restored ==> reg.cities[i] in r
    ensures r == Pick(reg.cities, Positions(reg.cities, IsPending))
  {
    FilterKeepsExactly(reg.cities, IsPending);
    FilterIsPickPositions(reg.cities, IsPending);
    Filter(reg.cities, IsPending)
  }

  /** `getRestoredCities()`: the restored cities, in working-set order. */
  function GetRestoredCities(reg: Registry): (r: seq<City>)
    ensures IsSubsequence(r, reg.cities)
    ensures forall k :: 0 <= k < |r| ==> r[k].restored
    ensures forall i :: 0 <= i < |reg.cities| && reg.cities[i].restored ==> reg.cities[i] in r
    ensures r == Pick(reg.cities, Positions(reg.cities, IsRestored))
  {
    FilterKeepsExactly(reg.cities, IsRestored);
    FilterIsPickPositions(reg.cities, IsRestored);
    Filter(reg.cities, IsRestored)
  }
}

=== FILE: data_loader.dfy ===
/**
 * The loader: line-delimited JSON text to validated city records. Lines that
 * are blank, do not parse, or fail validation are skipped; the load as a whole
 * never fails.
 */
module DataLoader {
  import opened Wrappers
  import opened Js
  import opened Seqs
  import opened Cities

  /** `JSON.parse` on one trimmed line: `None` when it throws. */
  type Parser = string -> Option<JsValue>

  /**
   * The verdict of `isValidCity`. `Throws` is the one way it fails abruptly: a
   * record with an own "hasOwnProperty" key shadows the method it calls, and the
   * call throws a TypeError that the loader's `catch` absorbs.
   */
  datatype Validation = Valid | Invalid | Throws

  /** `typeof x === 'number' && !isNaN(x)`. */
  predicate IsNumber(v: JsValue) {
    v.JNumber? && v.n.Finite?
  }

  /** The required fields with their types and ranges. */
  predicate HasCityFields(f: map<string, JsValue>) {
    && "name" in f && f["name"].JString? && |f["name"].s| > 0
    && "population" in f && IsNumber(f["population"])
    && "lat" in f && IsNumber(f["lat"])
    && "lon" in f && IsNumber(f["lon"])
    && -90.0 <= f["lat"].n.value <= 90.0
    && -180.0 <= f["lon"].n.value <= 180.0
  }

  /**
   * `isValidCity`, checks in the JavaScript code's order: an object at all, a truthy
   * name, own population/lat/lon properties, a string name, non-NaN numbers,
   * then the coordinate ranges. A value passes exactly when it is an object,
   * has no own "hasOwnProperty" key, and carries a non-empty string name,
   * non-NaN numbers and in-range coordinates; it throws exactly when an object
   * with a truthy name has such a key.
   */
  function ValidateCity(v: JsValue): (r: Validation)
    ensures r == Valid <==> v.JObject? && "hasOwnProperty" !in v.fields && HasCityFields(v.fields)
    ensures r == Throws <==> v.JObject? && Truthy(Get(v, "name")) && "hasOwnProperty" in v.fields
  {
    if !Truthy(v) || !(v.JObject? || v.JArray?) then Invalid
    else if !Truthy(Get(v, "name")) then Invalid
    else if v.JObject? && "hasOwnProperty" in v.fields then Throws
    else if !(v.JObject? && "population" in v.fields && "lat" in v.fields && "lon" in v.fields) then Invalid
    else if !v.fields["name"].JString? then Invalid
    else if !IsNumber(v.fields["population"]) then Invalid
    else if !IsNumber(v.fields["lat"]) then Invalid
    else if !IsNumber(v.fields["lon"]) then Invalid
    else if v.fields["lat"].n.value < -90.0 || v.fields["lat"].n.value > 90.0 then Invalid
    else if v.fields["lon"].n.value < -180.0 || v.fields["lon"].n.value > 180.0 then Invalid
    else Valid
  }

  /** The fresh record built from a valid parsed object. */
  function ToCity(v: JsValue): (c: City)
    requires ValidateCity(v) == Valid
    ensures WellFormed(c) && Untouched(c)
    ensures v.JObject? && HasCityFields(v.fields)
    ensures && c.name == v.fields["name"].s
            && c.population == v.fields["population"].n.value
            && c.lat == v.fields["lat"].n.value
            && c.lon == v.fields["lon"].n.value
  {
    City(v.fields["name"].s, v.fields["population"].n.value,
         v.fields["lat"].n.value, v.fields["lon"].n.value, false, false)
  }

  /** One raw line through trim, the blank-line skip, parse and validation. */
  function CityOfLine(parse: Parser, raw: string): (r: Option<City>)
    ensures r.Some? ==> WellFormed(r.value) && Untouched(r.value)
  {
    var line := Trim(raw);
    if line == [] then None
    else match parse(line)
      case None => None
      case Some(v) => if ValidateCity(v) == Valid then Some(ToCity(v)) else None
  }

  /**
   * A line yields a record exactly when it is not blank, parses, and passes
   * validation; the record then carries the parsed fields.
   */
  lemma CityOfLineKeeps(parse: Parser, raw: string)
    ensures CityOfLine(parse, raw).Some? <==>
              (&& !AllWhitespace(raw)
               && parse(Trim(raw)).Some?
               && ValidateCity(parse(Trim(raw)).value) == Valid)
    ensures CityOfLine(parse, raw).Some? ==> CityOfLine(parse, raw).value == ToCity(parse(Trim(raw)).value)
  {
    TrimEmptyIffBlank(raw);
  }

  /** The records the loop accumulates over `lines`, in line order. */
  function ValidCities(parse: Parser, lines: seq<string>): (r: seq<City>)
    ensures |r| <= |lines|
    ensures forall k :: 0 <= k < |r| ==> WellFormed(r[k]) && Untouched(r[k])
    decreases |lines|
  {
    if |lines| == 0 then []
    else
      var init := ValidCities(parse, lines[..|lines| - 1]);
      match CityOfLine(parse, lines[|lines| - 1])
      case None => init
      case Some(c) => init + [c]
  }

  /** The line filter of the loader: the line yields a record. */
  function Keeps(parse: Parser): string -> bool
  {
    raw => CityOfLine(parse, raw).Some?
  }

  /**
   * The output is exactly the records of the kept lines, in line order: an
   * order-preserving selection from the parsed, valid records, dropping nothing else.
   */
  lemma {:induction false} ValidCitiesAreKeptLines(parse: Parser, lines: seq<string>)
    ensures |ValidCities(parse, lines)| == |Positions(lines, Keeps(parse))|
    ensures forall k :: 0 <= k < |Positions(lines, Keeps(parse))| ==>
              CityOfLine(parse, lines[Positions(lines, Keeps(parse))[k]]) == Some(ValidCities(parse, lines)[k])
    decreases |lines|
  {
    if |lines| > 0 {
      var n := |lines| - 1;
      var prefix := lines[..n];
      ValidCitiesAreKeptLines(parse, prefix);
      var cs, ks := ValidCities(parse, prefix), Positions(prefix, Keeps(parse));
      var last := CityOfLine(parse, lines[n]);
      assert lines == prefix + [lines[n]];
      PositionsSnoc(prefix, lines[n], Keeps(parse));
      ValidCitiesSnoc(parse, prefix, lines[n]);
      assert Keeps(parse)(lines[n]) == last.Some?;
      forall k | 0 <= k < |ks|
        ensures CityOfLine(parse, lines[ks[k]]) == Some(cs[k])
      {
        assert prefix[ks[k]] == lines[ks[k]];
      }
    }
  }

  /** Loading text with one more line appends at most that line's record. */
  lemma ValidCitiesSnoc(parse: Parser, lines: seq<string>, line: string)
    ensures ValidCities(parse, lines + [line]) ==
            ValidCities(parse, lines) + (match CityOfLine(parse, line) case None => [] case Some(c) => [c])
  {
    assert (lines + [line])[..|lines|] == lines;
  }

  /**
   * `parseCityData(text)`: split on '\n', trim, skip blank lines, parse and
   * validate each line, and collect fresh records. It never fails as a whole.
   */
  method ParseCityData(text: string, parse: Parser) returns (cities: seq<City>)
    ensures cities == ValidCities(parse, SplitLines(text))
    ensures forall k :: 0 <= k < |cities| ==> WellFormed(cities[k]) && Untouched(cities[k])
  {
    cities := ParseLines(SplitLines(text), parse);
  }

  /**
   * The loop of `parseCityData` over the already split lines; `CityOfLine` is
   * its body (trim, blank skip, parse inside `try`, validate, build).
   */
  method ParseLines(lines: seq<string>, parse: Parser) returns (cities: seq<City>)
    ensures cities == ValidCities(parse, lines)
  {
    cities := [];
    var i := 0;
    while i < |lines|
      invariant 0 <= i <= |lines|
      invariant cities == ValidCities(parse, lines[..i])
    {
      var record := CityOfLine(parse, lines[i]);
      ValidCitiesSnoc(parse, lines[..i], lines[i]);
      assert lines[..i + 1] == lines[..i] + [lines[i]];
      if record.Some? {
        cities := cities + [record.value];
      }
      i := i + 1;
    }
    assert lines[..|lines|] == lines;
  }
}

=== FILE: distance.dfy ===
/**
 * The proximity filter of the distance calculator. The haversine distance
 * itself is a parameter `dist(lat1, lon1, lat2, lon2)`; cities are referred to
 * by their position in one working set, which is what object identity means here.
 */
module DistanceCalculator {
  import opened Seqs
  import opened Cities

  /** A great-circle distance in miles between two (lat, lon) points in degrees. */
  type Distance = (real, real, real, real) -> real

  /** City `i` is another city than `center` and lies within `radius` miles of it. */
  predicate WithinRadius(dist: Distance, cities: seq<City>, center: nat, radius: real, i: nat) {
    && center < |cities|
    && i < |cities|
    && i != center
    && dist(cities[center].lat, cities[center].lon, cities[i].lat, cities[i].lon) <= radius
  }

  /** The filter callback of `findCitiesWithinRadius`. */
  function Near(dist: Distance, cities: seq<City>, center: nat, radius: real): nat -> bool
  {
    (i: nat) => WithinRadius(dist, cities, center, radius, i)
  }

  /**
   * `findCitiesWithinRadius(center, candidates, radius)`: the candidates other
   * than the center itself whose distance from it is at most `radius`, in
   * candidate order.
   */
  function FindCitiesWithinRadius(dist: Distance, cities: seq<City>, center: nat,
                                  candidates: seq<nat>, radius: real): (r: seq<nat>)
    ensures IsSubsequence(r, candidates)
    ensures forall k :: 0 <= k < |r| ==> r[k] in candidates && WithinRadius(dist, cities, center, radius, r[k])
    ensures forall k :: (0 <= k < |candidates| && WithinRadius(dist, cities, center, radius, candidates[k]))
                        ==> candidates[k] in r
    ensures center !in r
  {
    FilterKeepsExactly(candidates, Near(dist, cities, center, radius));
    Filter(candidates, Near(dist, cities, center, radius))
  }

  /**
   * The result lists the in-radius candidates position by position, so a
   * candidate repeated in the list is repeated in the result.
   */
  lemma WithinRadiusPositions(dist: Distance, cities: seq<City>, center: nat,
                                                 candidates: seq<nat>, radius: real)
    ensures FindCitiesWithinRadius(dist, cities, center, candidates, radius)
            == Pick(candidates, Positions(candidates, Near(dist, cities, center, radius)))
  {
    FilterIsPickPositions(candidates, Near(dist, cities, center, radius));
  }

  /** A candidate list without a nearby city yields nothing. */
  lemma NoneWithinRadius(dist: Distance, cities: seq<City>, center: nat, candidates: seq<nat>, radius: real)
    requires forall k :: 0 <= k < |candidates| ==> !WithinRadius(dist, cities, center, radius, candidates[k])
    ensures FindCitiesWithinRadius(dist, cities, center, candidates, radius) == []
  {
  }

  /** One more candidate within the radius adds exactly one city to the result. */
  lemma WithinRadiusSnoc(dist: Distance, cities: seq<City>, center: nat, candidates: seq<nat>, radius: real, x: nat)
    ensures |FindCitiesWithinRadius(dist, cities, center, candidates + [x], radius)| ==
            |FindCitiesWithinRadius(dist, cities, center, candidates, radius)|
            + (if WithinRadius(dist, cities, center, radius, x) then 1 else 0)
  {
    assert (candidates + [x])[..|candidates|] == candidates;
  }
}

=== FILE: game_controller.dfy ===
/**
 * The game controller: session state over the registry's working set, the
 * restore operation with its ordered guards, the timer, and the state queries.
 * Every operation is a pure function from the old state to the new one.
 */
module GameController {
  import opened Wrappers
  import opened Seqs
  import opened Js
  import opened Cities
  import opened CityManager
  import opened DistanceCalculator
  import opened ScoringEngine

  /** The session configuration; the player name is carried but never read. */
  datatype Config = Config(
    playerName: string,
    randomSeed: int,
    numCities: int,
    damagedFraction: real,
    timerDuration: int,
    advancedMode: bool)

  /** The controller: configuration, registry and the five session fields. */
  datatype Game = Game(
    config: Config,
    registry: Registry,
    transformers: real,
    score: real,
    timeRemaining: int,
    timerStarted: bool,
    gameEnded: bool)

  /** Why a restore attempt was turned down, in the order the guards are tried. */
  datatype Rejection =
    | GameHasEnded
    | CityNotFound
    | CityNotDamaged
    | CityAlreadyRestored
    | NotEnoughTransformers

  /** The result object of `restoreCity`. */
  datatype RestoreResult =
    | Restored(cityName: string, pointsEarned: real, transformersUsed: real)
    | Rejected(reason: Rejection)
  {
    predicate Success() {
      Restored?
    }

    /** Only a successful restoration tells the input field to clear. */
    predicate ShouldClearInput() {
      Restored?
    }

    function Message(): string {
      match this
      case Restored(name, _, _) => name + " restored!"
      case Rejected(GameHasEnded) => "Game has ended"
      case Rejected(CityNotFound) => "City not found"
      case Rejected(CityNotDamaged) => "City is not damaged"
      case Rejected(CityAlreadyRestored) => "City already restored"
      case Rejected(NotEnoughTransformers) => "Not enough transformers"
    }
  }

  function Working(g: Game): seq<City> {
    g.registry.cities
  }

  /** The session invariant: transformers never negative, only damaged cities restored. */
  predicate Consistent(g: Game) {
    && g.transformers >= 0.0
    && forall i :: 0 <= i < |Working(g)| ==> RestoredOnlyIfDamaged(Working(g)[i])
  }

  /** In basic mode the transformers on hand equal the cities awaiting restoration. */
  predicate BasicBalance(g: Game) {
    !g.config.advancedMode ==> g.transformers == |Filter(Working(g), IsPending)| as real
  }

  /**
   * `initializeWithCities(cities)`: build the registry from the seed, select
   * `numCities`, damage `damagedFraction` of them (a bad fraction throws and
   * initialisation stops), then one transformer per damaged city, score 0, the
   * full timer, and both flags down.
   */
  function InitializeWithCities(config: Config, cities: seq<City>): (r: Result<Game, DamageError>)
    ensures r.Failure? <==> config.damagedFraction < 0.5 || config.damagedFraction > 1.0
    ensures r.Success? ==>
              r.value.registry ==
                DamageCities(SelectCities(NewRegistry(cities, config.randomSeed), config.numCities),
                             config.damagedFraction).value
    ensures r.Success? ==>
              && r.value.config == config
              && |Working(r.value)| == SelectionSize(config.numCities, |cities|)
              && r.value.transformers == |Filter(Working(r.value), IsPending)| as real
              && BasicBalance(r.value)
              && r.value.score == 0.0
              && r.value.timeRemaining == config.timerDuration
              && !r.value.timerStarted && !r.value.gameEnded
  {
    var selected := SelectCities(NewRegistry(cities, config.randomSeed), config.numCities);
    match DamageCities(selected, config.damagedFraction)
    case Failure(e) => Failure(e)
    case Success(registry) =>
      Success(Game(config, registry, |Filter(registry.cities, IsPending)| as real,
                   0.0, config.timerDuration, false, false))
  }

  /**
   * From freshly loaded cities, initialisation damages exactly
   * Math.round(selected * fraction) cities, restores none, and hands out one
   * transformer for each damaged city.
   */
  lemma InitialDamageAndTransformers(config: Config, cities: seq<City>)
    requires 0.5 <= config.damagedFraction <= 1.0
    requires forall i :: 0 <= i < |cities| ==> Untouched(cities[i])
    ensures InitializeWithCities(config, cities).Success?
    ensures Consistent(InitializeWithCities(config, cities).value)
    ensures var g := InitializeWithCities(config, cities).value;
            var k := DamageCount(|Working(g)|, config.damagedFraction);
            && |Filter(Working(g), IsDamaged)| == k
            && Filter(Working(g), IsRestored) == []
            && g.transformers == k as real
  {
    var selected := SelectCities(NewRegistry(cities, config.randomSeed), config.numCities);
    SelectionKeepsUntouched(NewRegistry(cities, config.randomSeed), config.numCities);
    var g := InitializeWithCities(config, cities).value;
    assert Working(g) == DamageCities(selected, config.damagedFraction).value.cities;
    FreshDamage(selected, config.damagedFraction);
  }

  /**
   * Damaging an untouched working set restores nothing, so the cities
   * awaiting restoration are exactly the damaged ones, Math.round(n * fraction)
   * of them.
   */
  lemma FreshDamage(reg: Registry, fraction: real)
    requires 0.5 <= fraction <= 1.0
    requires forall i :: 0 <= i < |reg.cities| ==> Untouched(reg.cities[i])
    ensures DamageCities(reg, fraction).Success?
    ensures var after := DamageCities(reg, fraction).value.cities;
            && (forall i :: 0 <= i < |after| ==> RestoredOnlyIfDamaged(after[i]))
            && |Filter(after, IsDamaged)| == DamageCount(|after|, fraction)
            && Filter(after, IsPending) == Filter(after, IsDamaged)
            && Filter(after, IsRestored) == []
  {
    DamagesRoundedFraction(reg, fraction);
    var after := DamageCities(reg, fraction).value.cities;
    forall i | 0 <= i < |after|
      ensures !after[i].restored
    {
      assert after[i] == reg.cities[i].(damaged := after[i].damaged);
    }
    FilterAgree(after, IsPending, IsDamaged);
    FilterNone(after, IsRestored);
  }

  /** A selection from untouched cities is untouched. */
  lemma SelectionKeepsUntouched(reg: Registry, count: int)
    requires forall i :: 0 <= i < |reg.allCities| ==> Untouched(reg.allCities[i])
    ensures forall i :: 0 <= i < |SelectCities(reg, count).cities| ==> Untouched(SelectCities(reg, count).cities[i])
  {
    var q := SelectedPositions(reg, count);
    assert SelectCities(reg, count).cities == Pick(reg.allCities, q);
  }

  /** With the whole working set damaged, every selected city starts damaged and costs one transformer. */
  lemma FullDamageScenario(config: Config, cities: seq<City>)
    requires config.damagedFraction == 1.0
    requires forall i :: 0 <= i < |cities| ==> Untouched(cities[i])
    ensures InitializeWithCities(config, cities).Success?
    ensures var g := InitializeWithCities(config, cities).value;
            && g.transformers == |Working(g)| as real
            && forall i :: 0 <= i < |Working(g)| ==> IsPending(Working(g)[i])
  {
    InitialDamageAndTransformers(config, cities);
    var g := InitializeWithCities(config, cities).value;
    var n := |Working(g)|;
    assert n == SelectionSize(config.numCities, |cities|);
    assert DamageCount(n, 1.0) == n;
    forall i | 0 <= i < n
      ensures IsPending(Working(g)[i])
    {
      if !Working(g)[i].damaged {
        FilterShorter(Working(g), IsDamaged, i);
      }
    }
  }

  /** The cost of restoring the city at position i given the cities restored so far. */
  function CostOf(g: Game, dist: Distance, i: nat): real
  {
    CalculateRestorationCost(g.config.advancedMode, dist, Working(g), i, Positions(Working(g), IsRestored))
  }

  /** `startTimer()`: raise the one-way timer flag. */
  function StartTimer(g: Game): (r: Game)
    ensures r.timerStarted
    ensures r == g.(timerStarted := true)
  {
    if g.timerStarted then g else g.(timerStarted := true)
  }

  /**
   * `restoreCity(name)`. The guards run in order: game ended, city not found,
   * not damaged, already restored, too few transformers. Each rejection leaves
   * the game exactly as it was. Success restores the city, starts the timer,
   * spends the cost and adds the points.
   */
  function RestoreCity(g: Game, name: JsValue, dist: Distance): (r: (Game, RestoreResult))
    ensures r.1.Rejected? ==> r.0 == g
    ensures Consistent(g) ==> Consistent(r.0)
    ensures r.1 == Rejected(GameHasEnded) <==> g.gameEnded
    ensures r.1 == Rejected(CityNotFound) <==> !g.gameEnded && FindCityByName(Working(g), name).None?
    ensures var found := FindCityByName(Working(g), name);
            r.1 == Rejected(CityNotDamaged) <==>
              !g.gameEnded && found.Some? && !Working(g)[found.value].damaged
    ensures var found := FindCityByName(Working(g), name);
            r.1 == Rejected(CityAlreadyRestored) <==>
              !g.gameEnded && found.Some? && Working(g)[found.value].damaged && Working(g)[found.value].restored
    ensures var found := FindCityByName(Working(g), name);
            r.1 == Rejected(NotEnoughTransformers) <==>
              && !g.gameEnded && found.Some? && IsPending(Working(g)[found.value])
              && g.transformers < CostOf(g, dist, found.value)
    ensures r.1.Restored? ==>
              var i := FindCityByName(Working(g), name).value;
              var c := Working(g)[i];
              && IsPending(c)
              && Working(r.0) == Working(g)[i := c.(restored := true)]
              && r.1 == Restored(c.name, CalculatePoints(g.config.advancedMode, c), CostOf(g, dist, i))
              && 0.0 < r.1.transformersUsed <= 1.0
              && r.0.transformers == g.transformers - r.1.transformersUsed >= 0.0
              && r.0.score == g.score + r.1.pointsEarned
              && r.0.timerStarted
              && r.0 == g.(registry := r.0.registry, transformers := r.0.transformers,
                           score := r.0.score, timerStarted := true)
              && r.0.registry == g.registry.(cities := Working(r.0))
  {
    if g.gameEnded then (g, Rejected(GameHasEnded))
    else match FindCityByName(Working(g), name)
      case None => (g, Rejected(CityNotFound))
      case Some(i) =>
        var city := Working(g)[i];
        if !city.damaged then (g, Rejected(CityNotDamaged))
        else if city.restored then (g, Rejected(CityAlreadyRestored))
        else
          var cost := CostOf(g, dist, i);
          if g.transformers < cost then (g, Rejected(NotEnoughTransformers))
          else
            var started := StartTimer(g);
            var restored := city.(restored := true);
            var points := CalculatePoints(g.config.advancedMode, restored);
            var next := started.(registry := g.registry.(cities := Working(g)[i := restored]),
                                 transformers := g.transformers - cost,
                                 score := g.score + points);
            (next, Restored(city.name, points, cost))
  }

  /** In basic mode a restoration spends the transformer of exactly the city it takes off the list. */
  lemma RestoreKeepsBasicBalance(g: Game, name: JsValue, dist: Distance)
    requires BasicBalance(g)
    ensures BasicBalance(RestoreCity(g, name, dist).0)
  {
    var (g', res) := RestoreCity(g, name, dist);
    if res.Restored? && !g.config.advancedMode {
      var i := FindCityByName(Working(g), name).value;
      var c := Working(g)[i];
      FilterUpdateDrop(Working(g), i, c.(restored := true), IsPending);
    }
  }

  /**
   * Restoring the same name again right after a success is turned down as
   * already restored and changes nothing.
   */
  lemma RestoreTwice(g: Game, name: JsValue, dist: Distance)
    requires RestoreCity(g, name, dist).1.Restored?
    ensures var g' := RestoreCity(g, name, dist).0;
            RestoreCity(g', name, dist) == (g', Rejected(CityAlreadyRestored))
  {
    var g' := RestoreCity(g, name, dist).0;
    FindIgnoresFlags(Working(g), Working(g'), name);
  }

  /**
   * In advanced mode with nothing restored yet, a restoration costs exactly one
   * transformer and earns population/1000 points.
   */
  lemma FirstAdvancedRestoration(g: Game, name: JsValue, dist: Distance)
    requires g.config.advancedMode
    requires forall i :: 0 <= i < |Working(g)| ==> !Working(g)[i].restored
    requires RestoreCity(g, name, dist).1.Restored?
    ensures var res := RestoreCity(g, name, dist).1;
            var c := Working(g)[FindCityByName(Working(g), name).value];
            res.transformersUsed == 1.0 && res.pointsEarned * 1000.0 == c.population
  {
    var i := FindCityByName(Working(g), name).value;
    var restored := Positions(Working(g), IsRestored);
    assert restored == [];
    CostWithoutNeighbours(dist, Working(g), i, restored);
  }

  /** `endGame()`: raise the one-way ended flag. */
  function EndGame(g: Game): (r: Game)
    ensures r.gameEnded
    ensures r == g.(gameEnded := true)
  {
    if g.gameEnded then g else g.(gameEnded := true)
  }

  /**
   * `updateTimer()`: nothing once the game has ended; otherwise one second
   * less, and at or below zero the clock stops at 0 and the game ends.
   */
  function UpdateTimer(g: Game): (r: Game)
    ensures g.gameEnded ==> r == g
    ensures !g.gameEnded ==> && r.timeRemaining >= 0
                             && (r.gameEnded <==> g.timeRemaining <= 1)
                             && (r.gameEnded ==> r.timeRemaining == 0)
                             && (!r.gameEnded ==> r.timeRemaining == g.timeRemaining - 1)
    ensures r == g.(timeRemaining := r.timeRemaining, gameEnded := r.gameEnded)
  {
    if g.gameEnded then g
    else
      var t := g.timeRemaining - 1;
      if t <= 0 then EndGame(g.(timeRemaining := 0)) else g.(timeRemaining := t)
  }

  /** What the surrounding application can do to a running controller. */
  datatype Event = Tick | Restore(name: JsValue)

  function Step(g: Game, e: Event, dist: Distance): Game
  {
    match e
    case Tick => UpdateTimer(g)
    case Restore(name) => RestoreCity(g, name, dist).0
  }

  /** The controller after a sequence of events, applied in order. */
  function Run(g: Game, events: seq<Event>, dist: Distance): Game
    decreases |events|
  {
    if |events| == 0 then g else Run(Step(g, events[0], dist), events[1..], dist)
  }

  /** Ended is absorbing: no tick and no restore attempt changes an ended game. */
  lemma {:induction false} EndedIsAbsorbing(g: Game, events: seq<Event>, dist: Distance)
    requires g.gameEnded
    ensures Run(g, events, dist) == g
    decreases |events|
  {
    if |events| > 0 {
      assert Step(g, events[0], dist) == g;
      EndedIsAbsorbing(g, events[1..], dist);
    }
  }

  /**
   * Every sequence of ticks and restore attempts keeps the session invariant
   * and the basic-mode balance, never lowers a raised flag, never changes the
   * configuration or the working set's size, and never winds the clock back up.
   */
  lemma {:induction false} RunKeepsInvariants(g: Game, events: seq<Event>, dist: Distance)
    requires Consistent(g) && BasicBalance(g)
    requires g.timeRemaining >= 0
    ensures var g' := Run(g, events, dist);
            && Consistent(g') && BasicBalance(g')
            && (g.timerStarted ==> g'.timerStarted)
            && (g.gameEnded ==> g'.gameEnded)
            && g'.config == g.config
            && |Working(g')| == |Working(g)|
            && 0 <= g'.timeRemaining <= g.timeRemaining
    decreases |events|
  {
    if |events| > 0 {
      var s := Step(g, events[0], dist);
      if events[0].Restore? {
        RestoreKeepsBasicBalance(g, events[0].name, dist);
      } else {
        assert Working(s) == Working(g);
      }
      RunKeepsInvariants(s, events[1..], dist);
    }
  }

  /** k ticks of a running game with k seconds left bring the clock to 0 and end the game. */
  lemma {:induction false} TicksRunOut(g: Game, k: nat, dist: Distance)
    requires !g.gameEnded && k >= 1 && g.timeRemaining == k
    ensures Run(g, seq(k, _ => Tick), dist).timeRemaining == 0
    ensures Run(g, seq(k, _ => Tick), dist).gameEnded
    decreases k
  {
    var ticks := seq(k, _ => Tick);
    var s := UpdateTimer(g);
    assert ticks[1..] == seq(k - 1, _ => Tick);
    if k == 1 {
      assert s.gameEnded && s.timeRemaining == 0;
      EndedIsAbsorbing(s, ticks[1..], dist);
    } else {
      TicksRunOut(s, k - 1, dist);
    }
  }

  /** When every loaded city is selected, a name that matches a loaded city is found in the working set. */
  lemma FullSelectionFindsName(config: Config, cities: seq<City>, name: JsValue, i: nat)
    requires 0.5 <= config.damagedFraction <= 1.0 && config.numCities >= |cities|
    requires name.JString? && |name.s| > 0
    requires i < |cities| && NameMatches(cities[i], Lower(Trim(name.s)))
    ensures InitializeWithCities(config, cities).Success?
    ensures FindCityByName(Working(InitializeWithCities(config, cities).value), name).Some?
  {
    var reg := NewRegistry(cities, config.randomSeed);
    var n := |cities|;
    var selected := SelectCities(reg, config.numCities);
    var q := SelectedPositions(reg, config.numCities);
    FullSelectionCoversAll(reg, config.numCities);
    assert i in q;
    var k :| 0 <= k < |q| && q[k] == i;
    var g := InitializeWithCities(config, cities).value;
    assert Working(g) == DamageCities(selected, config.damagedFraction).value.cities;
    assert Working(g)[k].name == cities[i].name;
  }

  /**
   * The basic-mode session with every loaded city selected and damaged and a
   * three-second timer: restoring any of them by name scores 1 and spends one of
   * the n transformers, starts the timer, and three ticks then end the game at 0.
   */
  lemma BasicModeScenario(config: Config, cities: seq<City>, name: JsValue, dist: Distance, i: nat)
    requires !config.advancedMode && config.damagedFraction == 1.0 && config.timerDuration == 3
    requires config.numCities >= |cities|
    requires forall j :: 0 <= j < |cities| ==> Untouched(cities[j])
    requires name.JString? && |name.s| > 0
    requires i < |cities| && NameMatches(cities[i], Lower(Trim(name.s)))
    ensures InitializeWithCities(config, cities).Success?
    ensures var g := InitializeWithCities(config, cities).value;
            var (g', res) := RestoreCity(g, name, dist);
            && res.Restored?
            && g'.score == 1.0
            && g'.transformers == (|cities| - 1) as real
            && g'.timerStarted && !g'.gameEnded
            && Run(g', [Tick, Tick, Tick], dist).timeRemaining == 0
            && Run(g', [Tick, Tick, Tick], dist).gameEnded
  {
    FullDamageScenario(config, cities);
    FullSelectionFindsName(config, cities, name, i);
    RestoreThenThreeTicks(InitializeWithCities(config, cities).value, name, dist);
  }

  /** One basic-mode restoration of a pending city, then three ticks from three seconds. */
  lemma RestoreThenThreeTicks(g: Game, name: JsValue, dist: Distance)
    requires !g.config.advancedMode && !g.gameEnded && g.timeRemaining == 3
    requires g.transformers == |Working(g)| as real
    requires forall i :: 0 <= i < |Working(g)| ==> IsPending(Working(g)[i])
    requires FindCityByName(Working(g), name).Some?
    ensures var (g', res) := RestoreCity(g, name, dist);
            && res.Restored?
            && g'.score == g.score + 1.0
            && g'.transformers == (|Working(g)| - 1) as real
            && g'.timerStarted && !g'.gameEnded
            && Run(g', [Tick, Tick, Tick], dist).timeRemaining == 0
            && Run(g', [Tick, Tick, Tick], dist).gameEnded
  {
    var g' := RestoreCity(g, name, dist).0;
    assert seq(3, _ => Tick) == [Tick, Tick, Tick];
    TicksRunOut(g', 3, dist);
  }

  /** `getState()`: the session fields and the three city views. */
  datatype Snapshot = Snapshot(
    transformers: real,
    score: real,
    timeRemaining: int,
    timerStarted: bool,
    gameEnded: bool,
    cities: seq<City>,
    damagedCities: seq<City>,
    restoredCities: seq<City>)

  /**
   * The snapshot's damaged list (awaiting restoration) and restored list
   * together account for every damaged city of a consistent game, and in basic
   * mode the transformers count the damaged list.
   */
  function GetState(g: Game): (s: Snapshot)
    ensures && s.transformers == g.transformers && s.score == g.score
            && s.timeRemaining == g.timeRemaining
            && s.timerStarted == g.timerStarted && s.gameEnded == g.gameEnded
    ensures s.cities == Working(g)
    ensures s.damagedCities == GetDamagedCities(g.registry)
    ensures s.restoredCities == GetRestoredCities(g.registry)
    ensures Consistent(g) ==> |s.damagedCities| + |s.restoredCities| == |Filter(Working(g), IsDamaged)|
    ensures BasicBalance(g) && !g.config.advancedMode ==> s.transformers == |s.damagedCities| as real
  {
    var s := Snapshot(g.transformers, g.score, g.timeRemaining, g.timerStarted, g.gameEnded,
                      Working(g), GetDamagedCities(g.registry), GetRestoredCities(g.registry));
    if Consistent(g) then
      FilterSplitLength(Working(g), IsDamaged, IsPending, IsRestored);
      s
    else s
  }
}

=== FILE: js.dfy ===
/**
 * The slice of JavaScript's value model and string library that the game core
 * relies on: values as `JSON.parse` produces them, truthiness, `String.prototype.trim`,
 * `toLowerCase` and `split('\n')`.
 */
module Js {

  /** A JavaScript number as far as the core inspects it: NaN or a finite value. */
  datatype JsNumber = NaN | Finite(value: real)

  /** A JavaScript value: the ones `JSON.parse` yields, plus `undefined`. */
  datatype JsValue =
    | JUndefined
    | JNull
    | JBool(b: bool)
    | JNumber(n: JsNumber)
    | JString(s: string)
    | JArray(items: seq<JsValue>)
    | JObject(fields: map<string, JsValue>)

  /** Property access `v.key`: `undefined` when there is no such own property. */
  function Get(v: JsValue, key: string): (r: JsValue)
    ensures v.JObject? && key in v.fields ==> r == v.fields[key]
    ensures !(v.JObject? && key in v.fields) ==> r == JUndefined
  {
    if v.JObject? && key in v.fields then v.fields[key] else JUndefined
  }

  /** JavaScript truthiness: what `!v` negates. */
  predicate Truthy(v: JsValue) {
    match v
    case JUndefined => false
    case JNull => false
    case JBool(b) => b
    case JNumber(n) => n.Finite? && n.value != 0.0
    case JString(s) => |s| > 0
    case JArray(_) => true
    case JObject(_) => true
  }

  /** The characters `trim` removes: ECMAScript WhiteSpace and LineTerminator. */
  predicate IsWhitespace(c: char) {
    var u := c as int;
    || u == 0x09 || u == 0x0A || u == 0x0B || u == 0x0C || u == 0x0D || u == 0x20
    || u == 0xA0 || u == 0x1680 || (0x2000 <= u <= 0x200A) || u == 0x2028 || u == 0x2029
    || u == 0x202F || u == 0x205F || u == 0x3000 || u == 0xFEFF
  }

  /** Every character is whitespace (vacuously so for the empty string). */
  predicate AllWhitespace(s: string) {
    forall i :: 0 <= i < |s| ==> IsWhitespace(s[i])
  }

  /** The first position at or after `i` that does not hold whitespace (`|s|` if there is none). */
  function SkipForward(s: string, i: nat): (n: nat)
    requires i <= |s|
    ensures i <= n <= |s|
    ensures forall k :: i <= k < n ==> IsWhitespace(s[k])
    ensures n == |s| || !IsWhitespace(s[n])
    decreases |s| - i
  {
    if i < |s| && IsWhitespace(s[i]) then SkipForward(s, i + 1) else i
  }

  /**
   * The end of the text in `s[lo..j]` once trailing whitespace is dropped: every
   * character from the result up to `j` is whitespace, the one before it is not.
   */
  function SkipBackward(s: string, lo: nat, j: nat): (n: nat)
    requires lo <= j <= |s|
    ensures lo <= n <= j
    ensures forall k :: n <= k < j ==> IsWhitespace(s[k])
    ensures n == lo || !IsWhitespace(s[n - 1])
    decreases j
  {
    if lo < j && IsWhitespace(s[j - 1]) then SkipBackward(s, lo, j - 1) else j
  }

  /**
   * `s.trim()`: leading whitespace is skipped first, then trailing whitespace;
   * the result neither starts nor ends with whitespace.
   */
  function Trim(s: string): (r: string)
    ensures |r| <= |s|
    ensures |r| == 0 || (!IsWhitespace(r[0]) && !IsWhitespace(r[|r| - 1]))
  {
    var a := SkipForward(s, 0);
    s[a..SkipBackward(s, a, |s|)]
  }

  /** What `trim` removes is whitespace, from both ends only: the result is a middle slice of `s`. */
  lemma TrimIsMiddle(s: string)
    ensures exists i :: 0 <= i <= |s| - |Trim(s)| && s[i..i + |Trim(s)|] == Trim(s)
                      && AllWhitespace(s[..i]) && AllWhitespace(s[i + |Trim(s)|..])
  {
    var a := SkipForward(s, 0);
    var b := SkipBackward(s, a, |s|);
    assert AllWhitespace(s[..a]) by {
      assert forall k :: 0 <= k < a ==> s[..a][k] == s[k];
    }
    assert AllWhitespace(s[b..]) by {
      assert forall k :: 0 <= k < |s| - b ==> s[b..][k] == s[b + k];
    }
    assert b == a + |Trim(s)|;
  }

  /** A line is blank, and skipped by the loader, exactly when it is all whitespace. */
  lemma TrimEmptyIffBlank(s: string)
    ensures Trim(s) == [] <==> AllWhitespace(s)
  {
    var a := SkipForward(s, 0);
    var b := SkipBackward(s, a, |s|);
    if AllWhitespace(s) {
      assert a == |s|;
    } else {
      var k :| 0 <= k < |s| && !IsWhitespace(s[k]);
      assert a <= k < b;
    }
  }

  /** Trimming twice is trimming once. */
  lemma TrimIdempotent(s: string)
    ensures Trim(Trim(s)) == Trim(s)
  {
    var r := Trim(s);
    if |r| > 0 {
      assert SkipForward(r, 0) == 0;
      assert SkipBackward(r, 0, |r|) == |r|;
      assert r[0..|r|] == r;
    }
  }

  /** `toLowerCase` on one character; only the ASCII capitals A-Z are mapped. */
  function LowerChar(c: char): (d: char)
  {
    if 'A' <= c <= 'Z' then (c as int + 32) as char else c
  }

  /** `s.toLowerCase()`, character by character. */
  function Lower(s: string): (r: string)
    ensures |r| == |s|
    ensures forall i :: 0 <= i < |s| ==> r[i] == LowerChar(s[i])
  {
    seq(|s|, i requires 0 <= i < |s| => LowerChar(s[i]))
  }

  /** Lower-casing is idempotent, so comparing lower-cased names is an equivalence. */
  lemma LowerIdempotent(s: string)
    ensures Lower(Lower(s)) == Lower(s)
    ensures forall i :: 0 <= i < |s| ==> !('A' <= Lower(s)[i] <= 'Z')
  {
  }

  /** The pieces of `s.split('\n')`, in order. */
  function SplitLines(s: string): (r: seq<string>)
    ensures |r| >= 1
    ensures forall k :: 0 <= k < |r| ==> '\n' !in r[k]
    ensures JoinLines(r) == s
  {
    if |s| == 0 then [""]
    else
      var rest := SplitLines(s[1..]);
      if s[0] == '\n' then
        assert JoinLines([""] + rest) == "\n" + JoinLines(rest);
        assert s == [s[0]] + s[1..];
        [""] + rest
      else
        var r := [[s[0]] + rest[0]] + rest[1..];
        JoinConsFirst(s[0], rest);
        assert s == [s[0]] + s[1..];
        r
  }

  /** `parts.join('\n')`: the inverse of `SplitLines`. */
  function JoinLines(parts: seq<string>): string
    requires |parts| >= 1
    decreases |parts|
  {
    if |parts| == 1 then parts[0] else parts[0] + "\n" + JoinLines(parts[1..])
  }

  /** Joining a first piece onto the rest. */
  lemma JoinLinesCons(head: string, tail: seq<string>)
    ensures JoinLines([head] + tail) == if |tail| == 0 then head else head + "\n" + JoinLines(tail)
  {
    var q := [head] + tail;
    assert q[0] == head && q[1..] == tail;
  }

  /** Prefixing the first piece prefixes the joined text. */
  lemma {:induction false} JoinConsFirst(c: char, parts: seq<string>)
    requires |parts| >= 1
    ensures JoinLines([[c] + parts[0]] + parts[1..]) == [c] + JoinLines(parts)
  {
    var tail := parts[1..];
    JoinLinesCons([c] + parts[0], tail);
    JoinLinesCons(parts[0], tail);
    assert parts == [parts[0]] + tail;
    if |tail| > 0 {
      var rest := JoinLines(tail);
      assert ([c] + parts[0]) + "\n" + rest == [c] + (parts[0] + "\n" + rest);
    }
  }
}

=== FILE: scoring_engine.dfy ===
/**
 * Points and transformer cost of one restoration. Basic mode charges one
 * transformer and awards one point; advanced mode awards population/1000 and
 * discounts the cost by the restored cities nearby.
 */
module ScoringEngine {
  import opened Seqs
  import opened Cities
  import opened DistanceCalculator

  /** The radius, in miles, within which restored cities make a restoration cheaper. */
  const CostRadiusMiles: real := 300.0

  /** `calculatePoints(city)`. */
  function CalculatePoints(advanced: bool, city: City): (p: real)
    ensures !advanced ==> p == 1.0
    ensures advanced ==> p * 1000.0 == city.population
    ensures advanced && city.population >= 0.0 ==> p >= 0.0
  {
    if advanced then city.population / 1000.0 else 1.0
  }

  /** How many of the already restored cities lie within the cost radius of `center`. */
  function NearbyRestored(dist: Distance, cities: seq<City>, center: nat, restored: seq<nat>): nat
  {
    |FindCitiesWithinRadius(dist, cities, center, restored, CostRadiusMiles)|
  }

  /**
   * `calculateRestorationCost(city, restoredCities)`: 1 in basic mode,
   * 1/(1 + N) in advanced mode, N the restored cities within 300 miles. The
   * cost is never zero or negative and never above one transformer.
   */
  function CalculateRestorationCost(advanced: bool, dist: Distance, cities: seq<City>,
                                    center: nat, restored: seq<nat>): (c: real)
    ensures 0.0 < c <= 1.0
    ensures !advanced ==> c == 1.0
    ensures advanced ==> c * ((1 + NearbyRestored(dist, cities, center, restored)) as real) == 1.0
  {
    if advanced then
      var n := NearbyRestored(dist, cities, center, restored);
      UnitFraction(n);
      1.0 / ((1 + n) as real)
    else 1.0
  }

  /** 1/(1 + n) is a positive fraction of one whose product with 1 + n is one. */
  lemma UnitFraction(n: nat)
    ensures 0.0 < 1.0 / ((1 + n) as real) <= 1.0
    ensures (1.0 / ((1 + n) as real)) * ((1 + n) as real) == 1.0
  {
    var d := (1 + n) as real;
    assert d >= 1.0;
    assert (1.0 / d) * d == 1.0;
  }

  /** With no restored city nearby, an advanced-mode restoration costs a whole transformer. */
  lemma CostWithoutNeighbours(dist: Distance, cities: seq<City>, center: nat, restored: seq<nat>)
    requires forall k :: 0 <= k < |restored| ==> !WithinRadius(dist, cities, center, CostRadiusMiles, restored[k])
    ensures CalculateRestorationCost(true, dist, cities, center, restored) == 1.0
  {
    NoneWithinRadius(dist, cities, center, restored, CostRadiusMiles);
  }

  /**
   * Economies of proximity: in advanced mode one more restored city within
   * the radius makes the restoration strictly cheaper.
   */
  lemma CostDecreasesWithNearbyRestoration(dist: Distance, cities: seq<City>, center: nat,
                                           restored: seq<nat>, x: nat)
    requires WithinRadius(dist, cities, center, CostRadiusMiles, x)
    ensures CalculateRestorationCost(true, dist, cities, center, restored + [x])
            < CalculateRestorationCost(true, dist, cities, center, restored)
  {
    WithinRadiusSnoc(dist, cities, center, restored, CostRadiusMiles, x);
    var n := NearbyRestored(dist, cities, center, restored);
    assert NearbyRestored(dist, cities, center, restored + [x]) == n + 1;
    Reciprocal(1 + n, 2 + n);
  }

  /** 1/b < 1/a for 0 < a < b. */
  lemma Reciprocal(a: int, b: int)
    requires 0 < a < b
    ensures 1.0 / (b as real) < 1.0 / (a as real)
  {
    var x, y := 1.0 / (a as real), 1.0 / (b as real);
    assert x * (a as real) == 1.0;
    assert y * (b as real) == 1.0;
    if y >= x {
      assert y * (b as real) >= x * (b as real);
      assert x * (b as real) > x * (a as real);
    }
  }
}

=== FILE: seeded_random.dfy ===
/**
 * The deterministic random source: a Park–Miller multiplicative congruential
 * generator (modulus 2^31 - 1, multiplier 16807) and the Fisher–Yates shuffle
 * driven by it. The generator state is an exact integer; every product stays
 * below 2^53 in the JavaScript engine, so unbounded `int` arithmetic is faithful.
 */
module SeededRandom {
  import opened Seqs

  /** The modulus, the Mersenne prime 2^31 - 1. */
  const M: int := 2147483647
  /** The multiplier, 7^5. */
  const A: int := 16807

  /** A generator state that can never get stuck: 1 <= s <= M - 1. */
  type Rng = s: int | 1 <= s < M witness 1

  /** JavaScript's `%`: the remainder takes the sign of the dividend (truncating division). */
  function JsRem(a: int, b: int): (r: int)
    requires b > 0
    ensures a >= 0 ==> 0 <= r < b
    ensures a < 0 ==> -b < r <= 0
  {
    if a >= 0 then a % b else -((-a) % b)
  }

  /**
   * The constructor's seed normalisation exactly as the JavaScript code writes it:
   * the truncating remainder, plus M - 1 when that is not positive.
   */
  function InitAsWritten(seed: int): (s: int)
    ensures 0 <= s < M
    ensures seed >= 0 ==> 1 <= s
    ensures s == 0 <==> JsRem(seed, M) == -(M - 1)
  {
    var r := JsRem(seed, M);
    if r <= 0 then r + (M - 1) else r
  }

  /**
   * The corrected seed normalisation: the JavaScript code's, except that the one
   * remainder it sends to 0 goes to M - 1 instead. Every seed lands in
   * [1, M - 1], and only the seeds that would stick are treated differently.
   */
  function Init(seed: int): (s: Rng)
    ensures s == InitAsWritten(seed) <==> JsRem(seed, M) != -(M - 1)
  {
    var s := InitAsWritten(seed);
    if s == 0 then M - 1 else s
  }

  /**
   * The normalisation as written leaves the generator stuck at state 0 for the
   * seed -2147483646: `next()` then keeps state 0 and returns -1/2147483646,
   * outside [0, 1), and the shuffle's swap index floor(next() * (i + 1)) is -1.
   */
  lemma InitAsWrittenCanStick()
    ensures InitAsWritten(-2147483646) == 0
    ensures NextState(0) == 0
    ensures Value(0) < 0.0
    ensures forall i: nat :: i + 1 < M - 1 ==> SwapIndexAsWritten(Value(0), i) == -1
  {
    forall i: nat | i + 1 < M - 1
      ensures SwapIndexAsWritten(Value(0), i) == -1
    {
      var x := Value(0) * ((i + 1) as real);
      assert x == -((i + 1) as real) / ((M - 1) as real);
      assert -1.0 <= x < 0.0;
    }
  }

  /** The JavaScript code's swap index `Math.floor(next() * (i + 1))` on an arbitrary drawn value. */
  function SwapIndexAsWritten(v: real, i: nat): int
  {
    (v * ((i + 1) as real)).Floor
  }

  /** One step of the recurrence, with JavaScript's `%`. */
  function NextState(s: int): int
  {
    JsRem(s * A, M)
  }

  /** The value `next()` returns for the state it has just reached. */
  function Value(s: int): real
  {
    ((s - 1) as real) / ((M - 1) as real)
  }

  /** M is prime to 7, so M divides 7x only if it divides x. */
  lemma DividesSevenTimes(x: int)
    requires (7 * x) % M == 0
    ensures x % M == 0
  {
    var k := (7 * x) / M;
    assert 7 * x == k * M;
    assert M == 7 * 306783378 + 1;
    assert k == 7 * (x - k * 306783378);
    var q := x - k * 306783378;
    assert x == q * M;
  }

  /** The multiplier 7^5 cannot bring a state in [1, M - 1] to a multiple of M. */
  lemma ProductNotMultiple(s: Rng)
    ensures (s * A) % M != 0
  {
    if (s * A) % M == 0 {
      assert s * A == 7 * (2401 * s);
      DividesSevenTimes(2401 * s);
      assert 2401 * s == 7 * (343 * s);
      DividesSevenTimes(343 * s);
      assert 343 * s == 7 * (49 * s);
      DividesSevenTimes(49 * s);
      assert 49 * s == 7 * (7 * s);
      DividesSevenTimes(7 * s);
      DividesSevenTimes(s);
      assert false;
    }
  }

  /**
   * `next()`: advance the state and return a value in [0, 1). The state stays
   * in [1, M - 1], so the generator never degenerates.
   */
  function Next(s: Rng): (r: (Rng, real))
    ensures r.0 == NextState(s)
    ensures 0.0 <= r.1 < 1.0
    ensures r.1 == Value(r.0)
  {
    ProductNotMultiple(s);
    var s' := (s * A) % M;
    (s', Value(s'))
  }

  /** The state after n calls of `next()`. */
  function Advance(s: Rng, n: nat): Rng
    decreases n
  {
    if n == 0 then s else Advance(Next(s).0, n - 1)
  }

  /**
   * The swap index floor(next() * (i + 1)) for the state `next()` has just
   * reached, computed by exact integer division; it always lies in [0, i].
   */
  function SwapIndex(s: Rng, i: nat): (j: nat)
    ensures j <= i
  {
    var p := (s - 1) * (i + 1);
    assert p <= (M - 2) * (i + 1) < (M - 1) * (i + 1);
    p / (M - 1)
  }

  /**
   * The integer swap index is the floor of the JavaScript code's real expression
   * next() * (i + 1), evaluated exactly, and agrees with it as written.
   */
  lemma SwapIndexIsFloor(s: Rng, i: nat)
    ensures (SwapIndex(s, i) as real) <= Value(s) * ((i + 1) as real) < ((SwapIndex(s, i) + 1) as real)
    ensures SwapIndexAsWritten(Value(s), i) == SwapIndex(s, i)
  {
    var p := (s - 1) * (i + 1);
    var q := M - 1;
    var j := SwapIndex(s, i);
    assert j * q <= p < (j + 1) * q;
    FloorOfQuotient(p, q, j);
    assert Value(s) * ((i + 1) as real) == (p as real) / (q as real);
  }

  lemma FloorOfQuotient(p: int, q: int, j: int)
    requires q > 0
    requires j * q <= p < (j + 1) * q
    ensures (j as real) <= (p as real) / (q as real) < ((j + 1) as real)
  {
    var x := (p as real) / (q as real);
    assert x * (q as real) == p as real;
    assert (j as real) * (q as real) <= x * (q as real);
    assert x * (q as real) < ((j + 1) as real) * (q as real);
  }

  /**
   * The swap partners the Fisher–Yates loop draws from position i down to 1:
   * entry k is the partner of position i - k, which never lies above it.
   */
  function SwapSchedule(s: Rng, i: nat): (js: seq<nat>)
    ensures FitsBelow(js, i)
    decreases i
  {
    if i == 0 then []
    else
      var s1 := Next(s).0;
      [SwapIndex(s1, i)] + SwapSchedule(s1, i - 1)
  }

  /** A partner list fits positions i, i-1, ..., 1 when each entry lies at or below its position. */
  predicate FitsBelow(js: seq<nat>, i: nat) {
    |js| == i && forall k :: 0 <= k < i ==> js[k] <= i - k
  }

  /** The loop body of `shuffle`: swap position i with its partner, then go on with i - 1. */
  function SwapDown<T>(a: seq<T>, i: nat, js: seq<nat>): (r: seq<T>)
    requires i < |a| && FitsBelow(js, i)
    ensures |r| == |a|
    decreases i
  {
    if i == 0 then a else SwapDown(Swap(a, i, js[0]), i - 1, js[1..])
  }

  /** `shuffle(array)`: a permutation of the input, advancing the state |a| - 1 times. */
  function Shuffle<T>(s: Rng, a: seq<T>): (r: (Rng, seq<T>))
    ensures |r.1| == |a|
    ensures multiset(r.1) == multiset(a)
    ensures r.0 == Advance(s, if |a| == 0 then 0 else |a| - 1)
  {
    if |a| == 0 then (s, a)
    else
      var js := SwapSchedule(s, |a| - 1);
      SwapDownPermutes(a, |a| - 1, js);
      (Advance(s, |a| - 1), SwapDown(a, |a| - 1, js))
  }

  /** Every step is a swap, so the result is a rearrangement of the input. */
  lemma {:induction false} SwapDownPermutes<T>(a: seq<T>, i: nat, js: seq<nat>)
    requires i < |a| && FitsBelow(js, i)
    ensures multiset(SwapDown(a, i, js)) == multiset(a)
    decreases i
  {
    if i > 0 {
      SwapPermutes(a, i, js[0]);
      SwapDownPermutes(Swap(a, i, js[0]), i - 1, js[1..]);
    }
  }

  /** Swapping values looked up through an index list is looking them up through the swapped list. */
  lemma {:induction false} SwapDownPick<T>(a: seq<T>, q: seq<nat>, i: nat, js: seq<nat>)
    requires AllBelow(q, |a|)
    requires i < |q| && FitsBelow(js, i)
    ensures AllBelow(SwapDown(q, i, js), |a|)
    ensures SwapDown(Pick(a, q), i, js) == Pick(a, SwapDown(q, i, js))
    decreases i
  {
    SwapDownPermutes(q, i, js);
    PermutationStaysBelow(SwapDown(q, i, js), q, |a|);
    if i > 0 {
      SwapPick(a, q, i, js[0]);
      SwapDownPick(a, Swap(q, i, js[0]), i - 1, js[1..]);
    }
  }

  /**
   * The permutation a shuffle applies depends only on the seed state and the
   * length: shuffling any sequence is looking it up through the shuffled indices.
   */
  lemma ShuffleIsIndexPermutation<T>(s: Rng, a: seq<T>)
    ensures AllBelow(Shuffle(s, Range(|a|)).1, |a|)
    ensures Shuffle(s, a).1 == Pick(a, Shuffle(s, Range(|a|)).1)
    ensures Shuffle(s, a).0 == Shuffle(s, Range(|a|)).0
  {
    PickRange(a);
    if |a| > 0 {
      SwapDownPick(a, Range(|a|), |a| - 1, SwapSchedule(s, |a| - 1));
    }
  }

  /** Swapping positions of a repetition-free sequence keeps it repetition-free. */
  lemma {:induction false} SwapDownKeepsDistinct<T>(a: seq<T>, i: nat, js: seq<nat>)
    requires i < |a| && FitsBelow(js, i)
    requires Distinct(a)
    ensures Distinct(SwapDown(a, i, js))
    decreases i
  {
    if i > 0 {
      SwapKeepsDistinct(a, i, js[0]);
      SwapDownKeepsDistinct(Swap(a, i, js[0]), i - 1, js[1..]);
    }
  }

  /** A shuffled range 0..n-1 lists every position below n exactly once. */
  lemma ShuffledRangeIsPermutation(s: Rng, n: nat)
    ensures Distinct(Shuffle(s, Range(n)).1)
    ensures AllBelow(Shuffle(s, Range(n)).1, n)
    ensures forall x :: 0 <= x < n ==> x in Shuffle(s, Range(n)).1
  {
    var p := Shuffle(s, Range(n)).1;
    if n > 0 {
      assert Distinct(Range(n));
      SwapDownKeepsDistinct(Range(n), n - 1, SwapSchedule(s, n - 1));
    }
    SameElements(p, Range(n));
    PermutationStaysBelow(p, Range(n), n);
    forall x | 0 <= x < n
      ensures x in p
    {
      assert Range(n)[x] == x;
    }
  }

  /** Two sequences with the same multiset have the same members. */
  lemma SameElements(p: seq<nat>, q: seq<nat>)
    requires multiset(p) == multiset(q)
    ensures forall x :: x in p <==> x in q
  {
    forall x
      ensures x in p <==> x in q
    {
      assert x in p <==> x in multiset(p);
      assert x in q <==> x in multiset(q);
    }
  }

  /** A rearrangement of valid positions consists of valid positions. */
  lemma PermutationStaysBelow(p: seq<nat>, q: seq<nat>, n: nat)
    requires multiset(p) == multiset(q)
    requires AllBelow(q, n)
    ensures AllBelow(p, n)
  {
    forall k | 0 <= k < |p|
      ensures p[k] < n
    {
      assert p[k] in multiset(q);
      var i :| 0 <= i < |q| && q[i] == p[k];
    }
  }
}

=== FILE: seqs.dfy ===
/** Sequence vocabulary shared by the model: ranges, swaps, index picks, subsequences. */
module Seqs {

  /** The indices 0, 1, ..., n-1 in order. */
  function Range(n: nat): (r: seq<nat>)
    ensures |r| == n
    ensures forall k :: 0 <= k < n ==> r[k] == k
  {
    seq(n, k => k)
  }

  /** Exchanges the elements at positions i and j (the destructuring swap of the JavaScript code). */
  function Swap<T>(a: seq<T>, i: nat, j: nat): (r: seq<T>)
    requires i < |a| && j < |a|
    ensures |r| == |a|
    ensures r[i] == a[j] && r[j] == a[i]
    ensures forall k :: 0 <= k < |a| && k != i && k != j ==> r[k] == a[k]
  {
    a[i := a[j]][j := a[i]]
  }

  /** A swap rearranges: the same elements, as often as before. */
  lemma SwapPermutes<T>(a: seq<T>, i: nat, j: nat)
    requires i < |a| && j < |a|
    ensures multiset(Swap(a, i, j)) == multiset(a)
  {
  }

  /** Every element is a valid position of a sequence of length n. */
  predicate AllBelow(q: seq<nat>, n: nat) {
    forall k :: 0 <= k < |q| ==> q[k] < n
  }

  /** The elements of `a` at the positions listed by `q`, in the order of `q`. */
  function Pick<T>(a: seq<T>, q: seq<nat>): (r: seq<T>)
    requires AllBelow(q, |a|)
    ensures |r| == |q|
    ensures forall k :: 0 <= k < |q| ==> r[k] == a[q[k]]
  {
    seq(|q|, k requires 0 <= k < |q| => a[q[k]])
  }

  /** No element occurs twice. */
  predicate Distinct<T(==)>(q: seq<T>) {
    forall i, j :: 0 <= i < |q| && 0 <= j < |q| && i != j ==> q[i] != q[j]
  }

  /** Strictly increasing, hence also distinct. */
  predicate Increasing(q: seq<nat>) {
    forall i, j :: 0 <= i < j < |q| ==> q[i] < q[j]
  }

  /** The set of elements of a sequence. */
  function Elements<T>(q: seq<T>): set<T> {
    set x | x in q
  }

  /**
   * `a` can be obtained from `b` by deleting elements, keeping the order of the rest.
   */
  ghost predicate IsSubsequence<T>(a: seq<T>, b: seq<T>)
    decreases |b|
  {
    || |a| == 0
    || (&& |b| > 0
        && (|| (a[|a| - 1] == b[|b| - 1] && IsSubsequence(a[..|a| - 1], b[..|b| - 1]))
            || IsSubsequence(a, b[..|b| - 1])))
  }

  /** A sequence without repeated elements has as many distinct elements as positions. */
  lemma {:induction false} DistinctCardinality<T>(q: seq<T>)
    requires Distinct(q)
    ensures |Elements(q)| == |q|
  {
    if |q| > 0 {
      var p := q[..|q| - 1];
      assert Distinct(p);
      DistinctCardinality(p);
      assert Elements(q) == Elements(p) + {q[|q| - 1]};
      assert q[|q| - 1] !in Elements(p);
    }
  }

  /** Swapping two positions keeps a repetition-free sequence repetition-free. */
  lemma SwapKeepsDistinct<T>(a: seq<T>, i: nat, j: nat)
    requires i < |a| && j < |a|
    requires Distinct(a)
    ensures Distinct(Swap(a, i, j))
  {
    var r := Swap(a, i, j);
    forall x, y | 0 <= x < |r| && 0 <= y < |r| && x != y
      ensures r[x] != r[y]
    {
      var sx := if x == i then j else if x == j then i else x;
      var sy := if y == i then j else if y == j then i else y;
      assert r[x] == a[sx] && r[y] == a[sy];
    }
  }

  /** Selecting through an index sequence commutes with swapping that sequence. */
  lemma SwapPick<T>(a: seq<T>, q: seq<nat>, i: nat, j: nat)
    requires AllBelow(q, |a|)
    requires i < |q| && j < |q|
    ensures AllBelow(Swap(q, i, j), |a|)
    ensures Pick(a, Swap(q, i, j)) == Swap(Pick(a, q), i, j)
  {
  }

  /** Picking every position in order gives back the sequence itself. */
  lemma PickRange<T>(a: seq<T>)
    ensures AllBelow(Range(|a|), |a|)
    ensures Pick(a, Range(|a|)) == a
  {
  }

  /**
   * The positions of the elements satisfying `p`, in increasing order: the
   * index form of `array.filter(p)`.
   */
  function Positions<T>(s: seq<T>, p: T -> bool): (r: seq<nat>)
    ensures Increasing(r)
    ensures AllBelow(r, |s|)
    ensures forall i :: 0 <= i < |s| ==> (i in r <==> p(s[i]))
    decreases |s|
  {
    if |s| == 0 then []
    else
      var n := |s| - 1;
      var prefix := s[..n];
      var init := Positions(prefix, p);
      var r := if p(s[n]) then init + [n] else init;
      assert forall i :: 0 <= i < |s| ==> (i in r <==> p(s[i])) by {
        forall i | 0 <= i < |s|
          ensures i in r <==> p(s[i])
        {
          if i < n {
            assert prefix[i] == s[i];
            assert i in r <==> i in init;
          }
        }
      }
      r
  }

  /** Positions of a sequence extended by one element. */
  lemma PositionsSnoc<T>(s: seq<T>, x: T, p: T -> bool)
    ensures Positions(s + [x], p) == Positions(s, p) + (if p(x) then [|s|] else [])
  {
    assert (s + [x])[..|s|] == s;
  }

  /** `s.filter(p)`: the elements satisfying `p`, in their original order. */
  function Filter<T>(s: seq<T>, p: T -> bool): (r: seq<T>)
    ensures |r| <= |s|
    decreases |s|
  {
    if |s| == 0 then []
    else
      var init := Filter(s[..|s| - 1], p);
      if p(s[|s| - 1]) then init + [s[|s| - 1]] else init
  }

  /**
   * The filter keeps exactly the elements satisfying `p`, as an
   * order-preserving subsequence of its input.
   */
  lemma {:induction false} FilterKeepsExactly<T>(s: seq<T>, p: T -> bool)
    ensures forall k :: 0 <= k < |Filter(s, p)| ==> p(Filter(s, p)[k])
    ensures forall k :: 0 <= k < |Filter(s, p)| ==> Filter(s, p)[k] in s
    ensures forall k :: 0 <= k < |s| && p(s[k]) ==> s[k] in Filter(s, p)
    ensures IsSubsequence(Filter(s, p), s)
    decreases |s|
  {
    if |s| > 0 {
      var n := |s| - 1;
      var init := Filter(s[..n], p);
      FilterKeepsExactly(s[..n], p);
      assert s == s[..n] + [s[n]];
      if p(s[n]) {
        assert (init + [s[n]])[..|init|] == init;
      } else {
        assert IsSubsequence(init, s) by {
          if |init| > 0 {
            assert s[..|s| - 1] == s[..n];
          }
        }
      }
    }
  }

  /** Filtering is looking up the positions that satisfy the predicate. */
  lemma {:induction false} FilterIsPickPositions<T>(s: seq<T>, p: T -> bool)
    ensures Filter(s, p) == Pick(s, Positions(s, p))
    decreases |s|
  {
    if |s| > 0 {
      var n := |s| - 1;
      var prefix := s[..n];
      assert s == prefix + [s[n]];
      var q := Positions(prefix, p);
      assert Filter(prefix, p) == Pick(s, q) by {
        FilterIsPickPositions(prefix, p);
        assert Pick(prefix, q) == Pick(s, q);
      }
      assert Positions(s, p) == q + (if p(s[n]) then [n] else []) by {
        PositionsSnoc(prefix, s[n], p);
      }
      assert Filter(s, p) == Filter(prefix, p) + (if p(s[n]) then [s[n]] else []);
      if p(s[n]) {
        assert Pick(s, q + [n]) == Pick(s, q) + [s[n]];
      }
    }
  }

  /**
   * Turning one element from satisfying `p` to not satisfying it shortens the
   * filtered sequence by exactly one.
   */
  lemma {:induction false} FilterUpdateDrop<T>(s: seq<T>, i: nat, v: T, p: T -> bool)
    requires i < |s|
    requires p(s[i]) && !p(v)
    ensures |Filter(s[i := v], p)| == |Filter(s, p)| - 1
    decreases |s|
  {
    var n := |s| - 1;
    var t := s[i := v];
    assert t[..n] == if i == n then s[..n] else s[..n][i := v];
    if i < n {
      FilterUpdateDrop(s[..n], i, v, p);
    }
  }

  /** A strictly increasing sequence has no repetitions. */
  lemma IncreasingIsDistinct(q: seq<nat>)
    requires Increasing(q)
    ensures Distinct(q)
  {
    forall i, j | 0 <= i < |q| && 0 <= j < |q| && i != j
      ensures q[i] != q[j]
    {
      if i < j { assert q[i] < q[j]; } else { assert q[j] < q[i]; }
    }
  }

  /** Looking up a prefix of the positions is the prefix of the lookup. */
  lemma PickPrefix<T>(a: seq<T>, q: seq<nat>, k: nat)
    requires AllBelow(q, |a|)
    requires k <= |q|
    ensures AllBelow(q[..k], |a|)
    ensures Pick(a, q[..k]) == Pick(a, q)[..k]
  {
  }

  /** Two repetition-free sequences with the same elements have the same length. */
  lemma DistinctSameElementsSameLength<T>(p: seq<T>, q: seq<T>)
    requires Distinct(p) && Distinct(q)
    requires Elements(p) == Elements(q)
    ensures |p| == |q|
  {
    DistinctCardinality(p);
    DistinctCardinality(q);
  }

  /** Filters with predicates that agree on every element give the same result. */
  lemma {:induction false} FilterAgree<T>(s: seq<T>, p: T -> bool, q: T -> bool)
    requires forall k :: 0 <= k < |s| ==> p(s[k]) == q(s[k])
    ensures Filter(s, p) == Filter(s, q)
    decreases |s|
  {
    if |s| > 0 {
      var n := |s| - 1;
      assert forall k :: 0 <= k < n ==> s[..n][k] == s[k];
      FilterAgree(s[..n], p, q);
    }
  }

  /**
   * When `p` holds exactly where one of two exclusive predicates `q`, `r`
   * holds, filtering by `p` keeps as many elements as `q` and `r` together.
   */
  lemma {:induction false} FilterSplitLength<T>(s: seq<T>, p: T -> bool, q: T -> bool, r: T -> bool)
    requires forall k :: 0 <= k < |s| ==> (p(s[k]) <==> q(s[k]) || r(s[k])) && !(q(s[k]) && r(s[k]))
    ensures |Filter(s, p)| == |Filter(s, q)| + |Filter(s, r)|
    decreases |s|
  {
    if |s| > 0 {
      var n := |s| - 1;
      assert forall k :: 0 <= k < n ==> s[..n][k] == s[k];
      FilterSplitLength(s[..n], p, q, r);
      FilterLengthLast(s, p);
      FilterLengthLast(s, q);
      FilterLengthLast(s, r);
    }
  }

  /** The filtered length grows by one exactly when the last element is kept. */
  lemma FilterLengthLast<T>(s: seq<T>, p: T -> bool)
    requires |s| > 0
    ensures |Filter(s, p)| == |Filter(s[..|s| - 1], p)| + (if p(s[|s| - 1]) then 1 else 0)
  {
  }

  /** A filter that rejects some element is strictly shorter than its input. */
  lemma {:induction false} FilterShorter<T>(s: seq<T>, p: T -> bool, i: nat)
    requires i < |s| && !p(s[i])
    ensures |Filter(s, p)| < |s|
    decreases |s|
  {
    var n := |s| - 1;
    FilterLengthLast(s, p);
    if i < n {
      assert s[..n][i] == s[i];
      FilterShorter(s[..n], p, i);
    }
  }

  /** A filter nothing passes is empty. */
  lemma {:induction false} FilterNone<T>(s: seq<T>, p: T -> bool)
    requires forall k :: 0 <= k < |s| ==> !p(s[k])
    ensures Filter(s, p) == []
    decreases |s|
  {
    if |s| > 0 {
      var n := |s| - 1;
      assert forall k :: 0 <= k < n ==> s[..n][k] == s[k];
      FilterNone(s[..n], p);
    }
  }
}

=== FILE: wrappers.dfy ===
/** Failure-carrying result types used across the model. */
module Wrappers {

  /** A value that may be absent: the model's stand-in for JavaScript's `null` result. */
  datatype Option<+T> = None | Some(value: T)

  /** The outcome of an operation that can throw: `Failure` stands for the thrown error. */
  datatype Result<+R, +E> = Success(value: R) | Failure(error: E)
}
